=== FILE: README.md ===
# OldRoutine combat routine — a Dafny model

`OldRoutine` is a combat routine for a game bot. On every combat tick it walks a
fixed, ordered list of rules and stops at the first one that acts. The rules cover:
keeping a Flameblast channel going, animating items, raising corpses, self-buffs,
auras, totems, traps, curses, summons, mines, vaal skills and finally the attack.
Around that tick the routine does four more things:

- it weighs and filters monsters for the framework's target list;
- it rebuilds a registry of skill-bar roles when asked to;
- it resolves which of four configured attack slots to use, through a four-deep fallback chain;
- it rate-limits repeating rules with stopwatches.

The model is written as pure functions over immutable data. Everything the routine
would read from the game arrives as a value: the skill bar, the player, the best
target, counts of nearby monsters, items on the ground, and the current time.
Everything it would do to the game leaves as an `Effect`: a skill use together with
the result the game reports, a slot binding, a move, a blacklisting, a highlight
toggle. Each rule is a function from the tick's state and effects so far to either
`Done(handled, …)` or `Next(…)`. `Combat.Decide` runs them in the source's order.

Modules:

| module | file | what |
|---|---|---|
| `Common` | common.dfy | `Option`, ordered `Rarity`, ordinal substring search |
| `Blacklist` | blacklist.dfy | the area blacklist as id → expiry time |
| `Config` | config.dfy | the settings fields the logic reads |
| `Targeting` | targeting.dfy | the weight and inclusion handlers |
| `Registry` | registry.dfy | skills, role classification, the registry refresh (function and loop) |
| `Limiters` | limiters.dfy | stopwatches, strict and inclusive gates, the summon burst window |
| `Channel` | channel.dfy | the Flameblast channel state machine |
| `DamageMode` | damage.dfy | `EnsurceCast`, aoe/melee classification, the fallback chain |
| `Animate` | animate.dfy | item choice for Animate Weapon and Animate Guardian |
| `Combat` | combat.dfy | every rule of `Logic("combat")` and the tick |
| `Routine` | routine.dfy | `Start`, `Tick`, `Execute` (leash commands), `Logic` event dispatch |

A stopwatch is modelled as its start time. A stopwatch never restarted counts as
started at time 0. The time `now` is fixed for a whole tick.

## Model

| member | source | states |
|---|---|---|
| Common.ContainsAt | OldRoutine.cs:203-219 | a needle occurring at any offset is found by the substring test the type-path checks use |
| Common.ContainsHasOffset | OldRoutine.cs:203-219 | conversely, a needle the substring test finds occurs at some offset |
| Blacklist.Add | OldRoutine.cs:264-282 | blacklisting an id for a duration makes it blacklisted for that whole window and leaves every other id alone |
| Targeting.Weight | OldRoutine.cs:161-220 | the weight drops by half the distance; a monster then gets exactly the sum of the seven independent adjustments; the result lies within -60..+105 of the distance term |
| Targeting.NearerWeighsMore | OldRoutine.cs:163 | of two otherwise identical candidates the nearer weighs more, by half the distance gap |
| Targeting.RarerWeighsMore | OldRoutine.cs:179-190 | weight strictly increases with rarity |
| Targeting.CannotDieSourceGainsForty | OldRoutine.cs:169-171 | carrying the cannot-die aura adds exactly 40 |
| Targeting.NecromancerBonusAppliedOnce | OldRoutine.cs:208-213 | the necromancer bonus is applied once even when both affix lists qualify |
| Targeting.TaniwhaTailIsDemoted | OldRoutine.cs:215-219 | a Taniwha tail segment never weighs more than 75 above its distance term |
| Targeting.Include | OldRoutine.cs:230-287 | included exactly when every filter passes and no encounter exclusion applies; the blacklist grows by a one-hour entry exactly for an encounter exclusion, and is otherwise untouched |
| Targeting.IncludedIsNotBlacklisted | OldRoutine.cs:238-251 | a call that includes a monster never writes the blacklist, and the monster lies within the distance cap |
| Targeting.EncounterExclusionPersists | OldRoutine.cs:258-276 | a Piety portal or transitioning Miscreation stays excluded on every later check within the hour |
| Targeting.LeashSelectsRange | OldRoutine.cs:249-251 | the distance cap is the combat range once a leash is set, 300 while it is -1 |
| Registry.SkillAt | OldRoutine.cs:2130-2134 | a slot lookup yields a skill in that slot, or nothing when no skill occupies it |
| Registry.CurseSlotsSpec | OldRoutine.cs:442-456 | the curse list holds exactly the slots of on-bar, castable, curse-tagged skills, never -1, one entry per such skill in bar order |
| Registry.BoundCurseIndicesSpec | OldRoutine.cs:442-456 | the positions the bar scan adds a curse at name bound curses, strictly increase and miss none |
| Registry.CurseSlotsInOrder | OldRoutine.cs:442-456 | the `k`th recorded curse slot is the slot of the `k`th bound curse on the bar, so order and repeated slots are kept |
| Registry.FirstBoundSpec | OldRoutine.cs:458-476 | a placement slot is -1 exactly when no qualifying skill is on the bar, and otherwise belongs to the first such skill |
| Registry.FirstNamed | OldRoutine.cs:479-484 | the first skill of a given name, if any, and no earlier one carries that name |
| Registry.NamedSlot | OldRoutine.cs:479-585 | a named role holds the slot of the first skill of that name when that skill is castable and not a totem, trap or mine, and -1 when it is not or when no skill has the name; a later skill of the same name is never used |
| Registry.Refresh | OldRoutine.cs:414-588 | every named role agrees with its lookup; each of the aura, totem, trap and mine slots is -1 exactly when no qualifying skill is on the bar and otherwise belongs to the first qualifying skill on the bar; the curse list holds the slots of the bound curses in bar order, one entry each, none -1 |
| Registry.AllNamedIsEveryRole | OldRoutine.cs:416-438 | the refresh covers every named role the routine keeps |
| Registry.CurseSlotsAppend | OldRoutine.cs:443-456 | scanning one more skill extends the curse list exactly when that skill is a bound curse |
| Registry.FirstBoundAppend | OldRoutine.cs:458-476 | scanning one more skill sets an unset placement slot only when that skill qualifies |
| Registry.ScanSkillBar | OldRoutine.cs:440-476 | the single scanning loop produces the curse list and the four placement slots of the reference definitions |
| Registry.RefreshRoles | OldRoutine.cs:414-588 | the imperative refresh equals the functional one |
| Registry.NamedRoleIsCastable | OldRoutine.cs:386-389 | a bound named role is a castable skill of that name that is not a totem, trap or mine |
| Registry.ItemAurasNeedTheSetting | OldRoutine.cs:391-406 | with item auras disabled, only aura-tagged non-vaal skills can become the aura slot |
| Registry.NoTaggedSkillsNoBindings | OldRoutine.cs:442-476 | a bar with no curse- or aura-tagged skill yields no curse slots and, with item auras off, no aura slot |
| Limiters.Restart | OldRoutine.cs:1452 | a restart zeroes that stopwatch and no other |
| Limiters.RestartClosesGate | OldRoutine.cs:1438-1452 | right after a restart the strict gate is closed, and it opens exactly once the delay has passed |
| Limiters.RestartNotAhead | OldRoutine.cs:1452 | restarting at the current time keeps every start time in the past |
| Limiters.BurstAttempt | OldRoutine.cs:1591-1602 | each attempt raises the counter by one, except that the attempt reaching the quota zeroes it and is exactly the one that restarts; with a positive quota the counter stays below it and never goes negative |
| Limiters.WindowAdmitsQuota | OldRoutine.cs:1585-1648 | from a fresh window the first quota-1 attempts count up without restarting, and the quota-th restarts and zeroes |
| Channel.Resume | OldRoutine.cs:916-951 | a drop in charges interrupts, reaching the cap commits, anything else keeps charging; the channel stays active only while charging |
| Channel.SteadyChargesCommit | OldRoutine.cs:916-951 | with non-decreasing readings that reach the cap, the channel ends by committing |
| Channel.BelowCapKeepsCharging | OldRoutine.cs:916-951 | with non-decreasing readings below the cap, the channel stays active with the last reading |
| DamageMode.EnsureCast | OldRoutine.cs:2125-2137 | a slot comes back unchanged exactly when it is set and its skill exists and can be used, and -1 otherwise |
| DamageMode.Classify | OldRoutine.cs:1747-1765 | melee exactly within melee range; there, area exactly when three or more monsters are near the player; beyond it, area exactly when more than two monsters are near a target below Rare |
| DamageMode.StrongTargetsAtRangeGetSingleTarget | OldRoutine.cs:1747-1765 | a rare or unique target beyond melee range is fought single-target at range |
| DamageMode.MeleeModeIgnoresTargetCrowd | OldRoutine.cs:1753-1765 | within melee range only the crowd around the player decides aoe |
| DamageMode.FirstCastable | OldRoutine.cs:1767-1845 | the first castable mode of a chain, with every earlier mode not castable; none exactly when no mode is castable |
| DamageMode.Resolve | OldRoutine.cs:1767-1851 | the preferred mode wins when castable; with nothing castable, the fallback slot in melee; otherwise the slot can be used, and the range band changes only after both same-band modes fail |
| DamageMode.ResolveMatchesCascade | OldRoutine.cs:1767-1851 | the reducer over the fallback chain equals the source's nested cascade for all four starting modes |
| DamageMode.SingleMeleeScenario | OldRoutine.cs:1747-1851 | a normal target at distance 10 within a melee range of 12, with two monsters near the player, is single-target melee; with the area-melee slot unusable and the single-target melee slot usable, that slot is chosen, in melee |
| Animate.Nearest | OldRoutine.cs:1917-2009 | the index of the nearest eligible item, earliest among equals; none exactly when nothing is eligible |
| Animate.Select | OldRoutine.cs:1917-2009 | the pick is eligible, nearest and appended to the ignore list; nothing is picked exactly when nothing is eligible |
| Animate.NeverAnimatedTwice | OldRoutine.cs:1986-2009 | an item once picked is never picked again while the ignore list is kept |
| Animate.GuardianWeaponsAreAnimatable | OldRoutine.cs:1917-2009 | a weapon an unequipped guardian would take also passes the Animate Weapon filter |
| Combat.ResumeFlameblast | OldRoutine.cs:915-951 | an active channel always ends the tick as handled, leaving the channel state the charge tracker computes; a drop cancels it with no call made; the cap finishes the current action; below the cap it makes exactly one use of Flameblast at the player and keeps channelling at the current charge count |
| Combat.AnimateItem | OldRoutine.cs:954-1025 | acts only past the one-second gate and remembers the item it tried; a successful Animate Guardian leaves its stopwatch running, while Animate Weapon restarts on every try |
| Combat.RaiseCorpse | OldRoutine.cs:1027-1095 | uses the skill exactly when it is bound and usable, fewer minions are out than allowed and a corpse is present, aiming at that corpse; handled exactly when that use succeeds |
| Combat.KeepBuff | OldRoutine.cs:1097-1187 | uses the role's slot in place, unaimed, exactly when the role is bound, usable and its buff is missing; that use is the only call, and the tick is handled exactly when it succeeds |
| Combat.RefreshEndurance | OldRoutine.cs:1189-1211 | uses the Enduring Cry slot in place, unaimed, exactly when it is bound and usable and a monster is within 30; handled exactly when that use succeeds |
| Combat.ShieldWithMoltenShell | OldRoutine.cs:1213-1241 | uses the Molten Shell slot in place exactly when the inclusive gate is open, the buff is missing, the skill is usable and a monster is within combat range; handled exactly when that use succeeds; the stopwatch restarts on every try |
| Combat.AuraSweep | OldRoutine.cs:1292-1344 | the sweep ends the tick exactly when some candidate aura is on the bar or can be bound, and its use succeeds; earlier calls are kept |
| Combat.AuraSweepCalls | OldRoutine.cs:1292-1344 | every candidate the sweep reaches is bound to the aura slot when off the bar and then used unaimed, not in place, from its own slot or the aura slot, unless its bind failed; nothing else is called; a handled sweep ends with the successful use of the first candidate that lands, all earlier candidates having failed |
| Combat.MaintainAuras | OldRoutine.cs:1266-1346 | nothing without an aura slot or with no skill in it; otherwise handled exactly when the slotted aura is cast or the sweep lands one; when the slotted aura is missing and usable its use is the first call, and the only one when it succeeds |
| Combat.MaintainAurasCalls | OldRoutine.cs:1266-1346 | the aura rule only binds to the aura slot and uses skills unaimed and not in place; when the slotted aura is not cast successfully, the sweep binds and uses every candidate it reaches; a handled rule ends with the successful use of the slotted aura or of the first candidate that lands |
| Combat.StartFlameblast | OldRoutine.cs:1348-1357 | with four or more monsters within 15 the channel starts with no charges read and the tick ends handled |
| Combat.CheckReach | OldRoutine.cs:1400-1435 | no path blacklists the target for a minute; beyond combat range is the only "not handled" outcome, and it re-enables highlighting; out of sight or behind a door it ends the tick as handled with exactly one move toward the target |
| Combat.PlaceTotem | OldRoutine.cs:1437-1459 | uses the totem slot in place, halfway to the target, exactly when the strict gate is open, the skill usable and totems are below the cap; handled exactly when that use succeeds; restarts on every try |
| Combat.PlaceTrap | OldRoutine.cs:1461-1481 | uses the trap slot in place, halfway to the target, exactly when the strict gate is open and the skill usable; handled exactly when that use succeeds; restarts on every try |
| Combat.CurseSweep | OldRoutine.cs:1488-1503 | handled exactly when some curse slot applies to the target and its use succeeds; the curse cast last is the first such slot in list order, every applicable slot before it having been used and failed; only applicable slots are ever used |
| Combat.CurseSweepCalls | OldRoutine.cs:1488-1503 | every applicable curse slot the sweep reaches, all earlier applicable ones having failed, is actually used in place at the target with the reported result |
| Combat.ApplyCurses | OldRoutine.cs:1483-1505 | outside range, or against a lone normal monster, no curse is tried |
| Combat.KeepBloodRage | OldRoutine.cs:1508-1530 | uses the Blood Rage slot in place exactly when it is usable, the buff is missing and the target is within combat range; handled exactly when that use succeeds |
| Combat.BuildFrenzy | OldRoutine.cs:1555-1583 | uses the Frenzy slot at the target's center, not in place, exactly when it is usable, more than two charges short and a monster is within 60; handled exactly when that use succeeds |
| Combat.Summon | OldRoutine.cs:1585-1648 | uses the skill exactly when bound, past its strict gate, usable and below its minion cap: Raging Spirit at the target, not in place, Skeletons halfway, in place; handled exactly when that use succeeds; every try advances the burst counter, and only the try reaching the quota restarts the stopwatch, no other state changing; the counter stays below a positive quota |
| Combat.LayMine | OldRoutine.cs:1650-1685 | uses the mine slot in place exactly when gated, near, usable and below the cap; that use comes first, followed by a detonation only after a success when detonation is not instant; handled exactly when the use succeeds; restarts on every try |
| Combat.CastColdSnap | OldRoutine.cs:1687-1708 | uses the Cold Snap slot in place at the target exactly when it is bound and usable; handled exactly when that use succeeds |
| Combat.VaalSweep | OldRoutine.cs:1713-1735 | handled exactly when some usable vaal skill's use succeeds; earlier calls are kept |
| Combat.VaalSweepCalls | OldRoutine.cs:1713-1735 | every usable vaal skill the sweep reaches is used at the target, not in place, with the reported result; nothing else is called; a handled sweep ends with the successful use of the first such skill that succeeds, all earlier ones having failed |
| Combat.CastVaalSkills | OldRoutine.cs:1710-1737 | only when enabled and past the one-second gate; the stopwatch restarts only when no vaal skill was used |
| Combat.Attack | OldRoutine.cs:1745-1891 | always handled with one call; it moves exactly when the target lies beyond the range that applies (melee range when the resolved band is melee or the target has a proximity shield, ranged range otherwise), and otherwise uses the slot that classification and fallback resolve, which can be used unless it is the fallback |
| Combat.Open | OldRoutine.cs:915-1357 | every opening rule keeps the registry, leash and flag, and keeps counters and stopwatches sound |
| Combat.Engage | OldRoutine.cs:1400-1891 | every engagement rule keeps the same invariants; only the reach check reports "not handled"; the attack always ends the tick |
| Combat.RunOpening | OldRoutine.cs:915-1357 | the opening rules in order keep the invariants |
| Combat.RunEngagement | OldRoutine.cs:1400-1891 | a rule list ending with the attack reports "not handled" only for a target beyond combat range |
| Combat.Decide | OldRoutine.cs:896-1891 | a tick keeps the registry, leash and flag and keeps counters and stopwatches sound; it reports "not handled" only with no shrine and no target, or a target beyond combat range, and then it has just re-enabled highlighting |
| Combat.UnboundOpeningIsSilent | OldRoutine.cs:915-1357 | with no role bound no opening rule acts |
| Combat.IdleTickChangesNothing | OldRoutine.cs:1364-1374 | nothing bound, no target, no shrine: "not handled", highlighting on, state unchanged |
| Combat.UnreachableTargetIsBlacklisted | OldRoutine.cs:1407-1413 | a target with no path is blacklisted for 60000 ms and the tick is handled with nothing else done |
| Combat.InterruptedChannelEndsTick | OldRoutine.cs:922-926 | a drop in charges ends the tick handled, with no call made and the channel off |
| Combat.FullChannelIsReleased | OldRoutine.cs:928-936 | charges at the cap finish the current action and end the channel |
| Routine.Start | OldRoutine.cs:358-372 | start marks the registry for rebuild and stops the bot exactly when no attack slot is configured |
| Routine.Tick | OldRoutine.cs:409-589 | out of game or not dirty nothing changes; otherwise every named role agrees with its lookup on the current bar, the curse list holds the bound curses' slots in bar order, one entry each and none -1, the summon counters are zeroed and the flag cleared; leash, channel, stopwatches and ignored items never move |
| Routine.StartThenTickRebuilds | OldRoutine.cs:358-589 | after a start the first in-game tick rebuilds from that tick's bar, and later ticks keep it |
| Routine.Execute | OldRoutine.cs:1904-1913 | `SetLeash` with an argument stores the first one as the leash and returns null, and is the only call that changes state; `GetLeash` returns the current leash and changes nothing; `SetLeash` without an argument faults |
| Routine.SetThenGetLeash | OldRoutine.cs:88-97 | `GetLeash` after `SetLeash n` returns n |
| Routine.LeashSelectsInclusionRange | OldRoutine.cs:88-92 | after `SetLeash n` the inclusion cap is 300 for n = -1 and the combat range otherwise |
| Routine.Logic | OldRoutine.cs:869-896 | area change clears the animated-item list; death and level-up are handled; unknown events are not; combat keeps the tick invariants |
| Routine.AreaChangeForgetsAnimatedItems | OldRoutine.cs:871-880 | after an area change the item search sees every item as never animated |

## Left out

- Logging, the settings user interface, the `Initialize`, `Deinitialize`, `Stop` and `Name`/`Author`/`Version` members, and `ToString`: they have no effect on decisions.
- Waits and `FinishCurrentAction` timing: every sleep is dropped, so `now` is fixed for a tick.
- `CombatTargeting.Update()` and the framework's sorting by weight: the best target arrives in `World.target` as the framework's first choice.
- The strongbox check that sets the highlight flag, `DisableAlwaysHiglight` and `EnableAlwaysHiglight`: the model keeps only `EnableHighlight` on "not handled" returns, as an effect.
- `HandleShrines`: its answer arrives as `World.shrineHandled`. Its movement and shrine choice are outside the core.
- `BestDeadTarget`: the corpse arrives as `World.corpse`. Monster counting (`NumberOfMobsNear`), pathing, line of sight and door detection arrive as counts and flags.
- Targeting.Weight: computed over exact reals, not 32-bit floats, so float rounding is not modelled.
- Blacklist.Add: `AreaStateCache` is not part of this model. The store is assumed to answer "blacklisted" for an id until its expiry time.
- Registry.SkillAt: a slot holding no skill is treated as "cannot be used". Where the source would dereference null (for example `Slot(n).CanUse()` in a rule), the model moves on to the next rule. When the aura slot holds no skill, the source would fail before its aura sweep, so the model skips that sweep as well.
- Combat.ApplyCurses: the per-target curse dictionary is built with `Add`, which throws on two curse slots holding skills of the same name. The model reads the target's curses as a set and does not model that exception.
- The `CanUse` overloads with their debug and power-charge arguments are collapsed into one `canUse` answer per skill, and the result of every use call into one `useFails` answer per skill.
- Combat.AuraSweep: `SetSlot` is retried while the skill's slot stays -1. The model takes one success as binding the skill to the aura slot.
- `BlacklistedSkill` always answers false in the source, so it is dropped.
- Routine.Execute: the `Set<Name>`/`Get<Name>` commands generated by reflection over the settings class answer `null` in the model. The settings class is not part of it.
- Combat.Target: the source reads the target's distance three ways (`bestTarget.Distance`, the player's position against the cached position, and `LokiPoe.Me.Position` again after moving). The model collapses all three into one `distance`, so a difference between the readings within a tick is not modelled.
- Combat.AuraSweep: after a successful `SetSlot`, the skill that was displaced from the aura slot is not given slot -1 in the world's bar for the rest of the sweep, so a later candidate's checks see the bar as it was at the start of the tick.
- `DebugAuras` and `LeaveFrame` only pass through to the collapsed `CanUse` answer and to pathing queries, so they do not appear.

## Notes on the source

The code behaves as follows at points a reader might expect otherwise:

- An interrupted Flameblast channel ends the tick as handled at once. It does not fall through to the other rules.
- The simple limiters gate on strictly more than the delay. Molten Shell alone uses "at least".
- The registry is marked for rebuild only by `Start()`. An area change only clears the animated-item list.
- The vaal stopwatch is restarted only when the sweep ends without a successful use.
- A successful Animate Guardian does not restart its stopwatch, while Animate Weapon restarts on success and on failure.

=== FILE: animate.dfy ===
/**
 * Picking a ground item for Animate Weapon or Animate Guardian: the nearest
 * qualifying item within 30 units not animated before, which is then
 * remembered so that it is never picked again until the area changes.
 */
module Animate {
  import opened Common

  datatype ItemClass =
    | Claw | OneHandAxe | OneHandMace | OneHandSword | ThrustingOneHandSword
    | TwoHandAxe | TwoHandMace | TwoHandSword | Dagger | Staff
    | BodyArmour | Helmet | Boots | Gloves | OtherClass

  datatype Item = Item(
    requiredLevel: int,
    identified: bool,
    chromatic: bool,
    sockets: int,
    maxLinks: int,
    rarity: Rarity,
    itemClass: ItemClass)

  datatype WorldItem = WorldItem(id: int, distance: real, item: Item)

  /** The visuals of the current guardian's equipment; "" means that slot is empty. */
  datatype Equipped = Equipped(leftHand: string, chest: string, helm: string, boots: string, gloves: string)

  /** What the item is wanted for; the guardian variant sees the existing guardian, if any. */
  datatype Purpose = ForWeapon | ForGuardian(guardian: Option<Equipped>)

  const SearchRadius := 30.0

  /** The weapon classes a guardian can wield. */
  predicate GuardianWeapon(c: ItemClass) {
    c in {Claw, OneHandAxe, OneHandMace, OneHandSword, ThrustingOneHandSword, TwoHandAxe, TwoHandMace, TwoHandSword}
  }

  /** The weapon classes Animate Weapon accepts: the guardian's, plus daggers and staves. */
  predicate AnimatableWeapon(c: ItemClass) {
    GuardianWeapon(c) || c == Dagger || c == Staff
  }

  /** The checks shared by both skills: level, identified, not chromatic, under 5 sockets and links, at most Magic. */
  predicate Plain(item: Item, maxLevel: int) {
    && item.requiredLevel <= maxLevel
    && item.identified
    && !item.chromatic
    && item.sockets < 5
    && item.maxLinks < 5
    && !item.rarity.AtLeast(Rare)
  }

  /**
   * The item fills a guardian equipment slot that is still free; a slot is
   * free when there is no guardian or its visual is empty.
   */
  predicate FillsFreeSlot(g: Option<Equipped>, c: ItemClass) {
    || ((g.None? || g.value.leftHand == "") && GuardianWeapon(c))
    || ((g.None? || g.value.chest == "") && c == BodyArmour)
    || ((g.None? || g.value.helm == "") && c == Helmet)
    || ((g.None? || g.value.boots == "") && c == Boots)
    || ((g.None? || g.value.gloves == "") && c == Gloves)
  }

  predicate Fits(p: Purpose, item: Item, maxLevel: int) {
    && Plain(item, maxLevel)
    && match p
       case ForWeapon => AnimatableWeapon(item.itemClass)
       case ForGuardian(g) => FillsFreeSlot(g, item.itemClass)
  }

  /** A candidate: not animated before, within 30 units, and fit for the purpose. */
  predicate Eligible(wi: WorldItem, ignored: seq<int>, p: Purpose, maxLevel: int) {
    wi.id !in ignored && wi.distance < SearchRadius && Fits(p, wi.item, maxLevel)
  }

  /**
   * The index the source's stable distance ordering reaches first among
   * eligible items: the nearest, and the earliest of equally near ones.
   */
  function Nearest(items: seq<WorldItem>, ignored: seq<int>, p: Purpose, maxLevel: int): (r: Option<nat>)
    ensures r.Some? ==> r.value < |items| && Eligible(items[r.value], ignored, p, maxLevel)
    ensures r.Some? ==> forall j :: 0 <= j < |items| && Eligible(items[j], ignored, p, maxLevel) ==>
                          items[r.value].distance <= items[j].distance
    ensures r.Some? ==> forall j :: 0 <= j < r.value && Eligible(items[j], ignored, p, maxLevel) ==>
                          items[r.value].distance < items[j].distance
    ensures r.None? <==> forall j :: 0 <= j < |items| ==> !Eligible(items[j], ignored, p, maxLevel)
  {
    if |items| == 0 then None
    else
      var rest := Nearest(items[1..], ignored, p, maxLevel);
      assert forall i :: 1 <= i < |items| ==> items[i] == items[1..][i - 1];
      if Eligible(items[0], ignored, p, maxLevel) && (rest.None? || items[0].distance <= items[rest.value + 1].distance) then
        Some(0)
      else if rest.Some? then
        Some(rest.value + 1)
      else
        None
  }

  /** The picked item, if any, and the ignore list afterwards. */
  datatype Selection = Selection(pick: Option<WorldItem>, ignored: seq<int>)

  /**
   * `BestAnimateWeaponTarget` / `BestAnimateGuardianTarget`: pick the nearest
   * eligible item and append its id to the ignore list.
   */
  function Select(items: seq<WorldItem>, ignored: seq<int>, p: Purpose, maxLevel: int): (s: Selection)
    ensures s.pick.Some? ==> s.pick.value in items && Eligible(s.pick.value, ignored, p, maxLevel)
    ensures s.pick.Some? ==> s.ignored == ignored + [s.pick.value.id]
    ensures s.pick.Some? ==> forall j :: 0 <= j < |items| && Eligible(items[j], ignored, p, maxLevel) ==>
                               s.pick.value.distance <= items[j].distance
    ensures s.pick.None? ==> s.ignored == ignored
    ensures s.pick.None? <==> forall j :: 0 <= j < |items| ==> !Eligible(items[j], ignored, p, maxLevel)
  {
    match Nearest(items, ignored, p, maxLevel)
    case None => Selection(None, ignored)
    case Some(i) => Selection(Some(items[i]), ignored + [items[i].id])
  }

  /** An item once picked is never picked again while the ignore list is kept. */
  lemma NeverAnimatedTwice(items: seq<WorldItem>, later: seq<WorldItem>, ignored: seq<int>, p: Purpose, q: Purpose, maxLevel: int, maxLevel': int)
    requires Select(items, ignored, p, maxLevel).pick.Some?
    ensures var first := Select(items, ignored, p, maxLevel);
            var second := Select(later, first.ignored, q, maxLevel');
            second.pick.Some? ==> second.pick.value.id != first.pick.value.id
  {
  }

  /** Animate Weapon accepts every weapon a guardian without equipment would, plus daggers and staves. */
  lemma GuardianWeaponsAreAnimatable(item: Item, maxLevel: int)
    requires Fits(ForGuardian(None), item, maxLevel) && GuardianWeapon(item.itemClass)
    ensures Fits(ForWeapon, item, maxLevel)
  {
  }
}

=== FILE: blacklist.dfy ===
/**
 * The area blacklist the routine consults and writes to. Its store is owned by
 * the bot framework; this module gives it the smallest semantics the routine
 * relies on: an entry added for a duration is reported until it lapses.
 */
module Blacklist {

  /** Entity id -> the clock reading (ms) at which its entry lapses. */
  type Store = map<int, int>

  const MinuteMs: nat := 60_000
  const HourMs: nat := 3_600_000

  predicate IsBlacklisted(store: Store, id: int, now: int) {
    id in store && now < store[id]
  }

  /** Blacklist `id` for `durationMs` from `now`; other entries are untouched. */
  function Add(store: Store, id: int, now: int, durationMs: nat): (r: Store)
    ensures forall t :: now <= t < now + durationMs ==> IsBlacklisted(r, id, t)
    ensures forall other, t :: other != id ==> (IsBlacklisted(r, other, t) <==> IsBlacklisted(store, other, t))
  {
    store[id := now + durationMs]
  }
}

=== FILE: channel.dfy ===
/**
 * The Flameblast channel: started when enough monsters surround the player,
 * then resumed on every combat tick until its charges reach the cap or drop.
 */
module Channel {

  /** `_castingFlameblast` and `_lastFlameblastCharges`. */
  datatype Channel = Channel(casting: bool, last: int)

  /** The entry rule's effect: casting, with no charges read yet. */
  const Entered := Channel(true, 0)

  datatype Resumed =
    | Interrupted   // charges dropped: the channel was cut short, nothing is cast
    | Committed     // charges reached the cap: the current action is finished, releasing the cast
    | Charging      // keep channelling at the player's position

  datatype Tick = Tick(outcome: Resumed, channel: Channel)

  /** One tick of an active channel, given the current charge reading. */
  function Resume(ch: Channel, reading: int, maxCharges: int): (t: Tick)
    requires ch.casting
    ensures t.outcome == Interrupted <==> reading < ch.last
    ensures t.outcome == Committed <==> ch.last <= reading && maxCharges <= reading
    ensures t.channel.casting <==> t.outcome == Charging
    ensures t.outcome == Interrupted ==> t.channel.last == ch.last
    ensures t.outcome != Interrupted ==> t.channel.last == reading
  {
    if reading < ch.last then Tick(Interrupted, ch.(casting := false))
    else
      var ch := ch.(last := reading);
      if reading >= maxCharges then Tick(Committed, ch.(casting := false))
      else Tick(Charging, ch)
  }

  /** Feed successive readings to the channel until it stops casting. */
  function Drive(ch: Channel, readings: seq<int>, maxCharges: int): Channel
    decreases |readings|
  {
    if |readings| == 0 || !ch.casting then ch
    else Drive(Resume(ch, readings[0], maxCharges).channel, readings[1..], maxCharges)
  }

  predicate NonDecreasing(readings: seq<int>) {
    forall i, j :: 0 <= i < j < |readings| ==> readings[i] <= readings[j]
  }

  /**
   * Charges that never drop and eventually reach the cap always end in a
   * commit: the channel stops, never by interruption, at a reading at the cap.
   */
  lemma {:induction false} SteadyChargesCommit(ch: Channel, readings: seq<int>, maxCharges: int)
    requires ch.casting
    requires |readings| > 0 && ch.last <= readings[0] && NonDecreasing(readings)
    requires readings[|readings| - 1] >= maxCharges
    ensures !Drive(ch, readings, maxCharges).casting
    ensures Drive(ch, readings, maxCharges).last >= maxCharges
    decreases |readings|
  {
    var t := Resume(ch, readings[0], maxCharges);
    if t.outcome == Charging {
      assert |readings| > 1;
      var rest := readings[1..];
      assert rest[|rest| - 1] == readings[|readings| - 1];
      SteadyChargesCommit(t.channel, rest, maxCharges);
    }
  }

  /** While the readings stay below the cap and never drop, the channel keeps casting and remembers the latest reading. */
  lemma {:induction false} BelowCapKeepsCharging(ch: Channel, readings: seq<int>, maxCharges: int)
    requires ch.casting
    requires |readings| > 0 && ch.last <= readings[0] && NonDecreasing(readings)
    requires forall i :: 0 <= i < |readings| ==> readings[i] < maxCharges
    ensures Drive(ch, readings, maxCharges) == Channel(true, readings[|readings| - 1])
    decreases |readings|
  {
    var t := Resume(ch, readings[0], maxCharges);
    if |readings| > 1 {
      var rest := readings[1..];
      assert rest[|rest| - 1] == readings[|readings| - 1];
      BelowCapKeepsCharging(t.channel, rest, maxCharges);
    }
  }
}

=== FILE: combat.dfy ===
/**
 * One combat tick (`Logic("combat")`): a fixed, ordered walk over the rules,
 * stopping at the first that acts. World queries arrive as data in `World`;
 * every call into the game the routine would make is emitted as an `Effect`.
 */
module Combat {
  import opened Common
  import opened Registry
  import Config
  import Blacklist
  import Limiters
  import Channel
  import Animate
  import DamageMode

  /** The player buffs the rules test for. */
  datatype Buff =
    | TempestShieldUp | HeraldOfAshUp | HeraldOfIceUp | HeraldOfThunderUp
    | MoltenShellUp | ArcticArmourUp | BloodRageUp | RighteousFireUp

  /** What the rules read about the player. */
  datatype Me = Me(
    buffs: set<Buff>,
    auras: set<string>,
    flameblastCharges: int,
    totalCursesAllowed: int,
    maxTotemCount: int,
    frenzyCharges: int,
    maxFrenzyCharges: int)

  /** A path-distance answer; `Unreachable` stands for the `float.MaxValue` sentinel. */
  datatype PathDistance = Unreachable | Path(length: real)

  /** The best target, as the tick caches it once it has one. */
  datatype Target = Target(
    id: int,
    rarity: Rarity,
    distance: real,
    cursable: bool,
    curseCount: int,
    curses: set<string>,
    proximityShield: bool,
    mobsNear: int,
    canSee: bool,
    path: PathDistance,
    doorBetween: bool)

  /**
   * The world snapshot of one tick. `mobsNearMeN` is the number of monsters
   * within N of the player (Combat and Melee stand for the configured ranges);
   * `corpse` is the best corpse to raise; `shrineHandled` is what the shrine
   * behaviour reports; `target` is the first target of the ranked list.
   */
  datatype World = World(
    now: int,
    bar: seq<Skill>,
    me: Me,
    mobsNearMe15: int,
    mobsNearMe30: int,
    mobsNearMe60: int,
    mobsNearMeCombat: int,
    mobsNearMeMelee: int,
    items: seq<Animate.WorldItem>,
    guardian: Option<Animate.Equipped>,
    corpse: Option<int>,
    liveTotemsNear: int,
    shrineHandled: bool,
    target: Option<Target>)

  /** The routine's own fields that survive from one tick to the next. */
  datatype State = State(
    roles: Roles,
    needsUpdate: bool,
    leash: int,
    channel: Channel.Channel,
    skeletons: int,
    ragingSpirits: int,
    clocks: Limiters.Clocks,
    ignoredItems: seq<int>)

  /** Where a skill is used. */
  datatype Aim =
    | Unaimed | AtMe | AtTarget | AtTargetCenter | HalfwayToTarget
    | AtCorpse(corpseId: int) | OnItem(itemId: int)

  /** A call the routine makes into the game; `ok` is the result the call reports. */
  datatype Effect =
    | Cast(slot: int, inPlace: bool, aim: Aim, ok: bool)
    | Bind(slot: int, skillId: int, ok: bool)
    | FinishChannel
    | DetonateMines
    | MoveTowardTarget
    | BlacklistTarget(id: int, durationMs: int)
    | EnableHighlight

  /** The state and the calls made so far in this tick. */
  datatype Acc = Acc(st: State, effects: seq<Effect>)

  /** A rule either ends the tick (with the value `Logic` returns) or passes it on. */
  datatype Step = Done(handled: bool, acc: Acc) | Next(acc: Acc)

  datatype Outcome = Outcome(handled: bool, effects: seq<Effect>, state: State)

  // ------------------------------------------------------------- invariants

  /** A tick never touches the registry, the dirty flag or the leash. */
  predicate Frame(st: State, st': State) {
    st'.roles == st.roles && st'.needsUpdate == st.needsUpdate && st'.leash == st.leash
  }

  /** Both summon counters are non-negative and, with a positive quota, below it. */
  predicate CountsBelowQuota(cfg: Config.Settings, st: State) {
    && 0 <= st.skeletons
    && 0 <= st.ragingSpirits
    && (cfg.summonSkeletonCountPerDelay >= 1 ==> st.skeletons < cfg.summonSkeletonCountPerDelay)
    && (cfg.summonRagingSpiritCountPerDelay >= 1 ==> st.ragingSpirits < cfg.summonRagingSpiritCountPerDelay)
  }

  predicate Sound(cfg: Config.Settings, st: State, now: int) {
    CountsBelowQuota(cfg, st) && Limiters.NotAhead(st.clocks, now)
  }

  /** What every rule keeps: the frame, and soundness at the tick's clock reading. */
  predicate Keeps(cfg: Config.Settings, now: int, st: State, st': State) {
    Frame(st, st') && (Sound(cfg, st, now) ==> Sound(cfg, st', now))
  }

  /** The rule made at least one call into the game. */
  predicate Acted(acc: Acc, s: Step) {
    |s.acc.effects| > |acc.effects|
  }

  /**
   * The rule made exactly one call, a use of `slot` with these flags, and
   * ended the tick exactly when that use succeeded.
   */
  predicate UsedOnce(w: World, acc: Acc, s: Step, slot: int, inPlace: bool, aim: Aim) {
    && s.acc.effects == acc.effects + [Cast(slot, inPlace, aim, UseSucceeds(w.bar, slot))]
    && (s.Done? <==> UseSucceeds(w.bar, slot))
  }

  /** The only reason, besides an empty target list, for a tick to report "not handled". */
  predicate TooFar(cfg: Config.Settings, t: Target) {
    t.path.Path? && t.path.length > cfg.combatRange as real
  }

  // ---------------------------------------------------------------- helpers

  function Emit(acc: Acc, e: Effect): Acc {
    acc.(effects := acc.effects + [e])
  }

  function Restarted(acc: Acc, t: Limiters.Timer, now: int): (a: Acc)
    ensures Limiters.NotAhead(acc.st.clocks, now) ==> Limiters.NotAhead(a.st.clocks, now)
  {
    acc.(st := acc.st.(clocks := Limiters.Restart(acc.st.clocks, t, now)))
  }

  /** A use call: on success the tick is handled, on an error the next rule is tried. */
  function Attempt(acc: Acc, slot: int, inPlace: bool, aim: Aim, ok: bool): (s: Step)
    ensures s.Done? <==> ok
    ensures s.Done? ==> s.handled
    ensures s.acc == Emit(acc, Cast(slot, inPlace, aim, ok))
  {
    var acc := Emit(acc, Cast(slot, inPlace, aim, ok));
    if ok then Done(true, acc) else Next(acc)
  }

  // ---------------------------------------------------------- opening rules

  /**
   * Resume an active Flameblast channel. Every branch ends the tick: a drop
   * in charges cancels the channel with no call made; reaching the cap
   * finishes the action; otherwise the skill is used again at the player.
   */
  function ResumeFlameblast(w: World, cfg: Config.Settings, acc: Acc): (s: Step)
    ensures s.Done? <==> acc.st.roles.Slot(Flameblast) != -1 && acc.st.channel.casting
    ensures s.Done? ==> s.handled
    ensures s.Done? && w.me.flameblastCharges < acc.st.channel.last ==>
              s.acc.effects == acc.effects && !s.acc.st.channel.casting
    ensures s.Done? && acc.st.channel.last <= w.me.flameblastCharges && cfg.maxFlameBlastCharges <= w.me.flameblastCharges ==>
              s.acc.effects == acc.effects + [FinishChannel] && !s.acc.st.channel.casting
    ensures s.acc.st == acc.st.(channel := s.acc.st.channel)
    ensures s.Done? ==> s.acc.st.channel == Channel.Resume(acc.st.channel, w.me.flameblastCharges, cfg.maxFlameBlastCharges).channel
    ensures s.Done? && acc.st.channel.last <= w.me.flameblastCharges < cfg.maxFlameBlastCharges ==>
              && s.acc.effects == acc.effects + [Cast(acc.st.roles.Slot(Flameblast), false, AtMe, UseSucceeds(w.bar, acc.st.roles.Slot(Flameblast)))]
              && s.acc.st.channel == Channel.Channel(true, w.me.flameblastCharges)
  {
    var slot := acc.st.roles.Slot(Flameblast);
    if slot == -1 || !acc.st.channel.casting then Next(acc)
    else
      var t := Channel.Resume(acc.st.channel, w.me.flameblastCharges, cfg.maxFlameBlastCharges);
      var acc := acc.(st := acc.st.(channel := t.channel));
      match t.outcome
      case Interrupted => Done(true, acc)
      case Committed => Done(true, Emit(acc, FinishChannel))
      case Charging => Done(true, Emit(acc, Cast(slot, false, AtMe, UseSucceeds(w.bar, slot))))
  }

  function AnimateTimer(guardian: bool): Limiters.Timer {
    if guardian then Limiters.AnimateGuardianTimer else Limiters.AnimateWeaponTimer
  }

  function AnimateSlot(acc: Acc, guardian: bool): int {
    acc.st.roles.Slot(if guardian then AnimateGuardian else AnimateWeapon)
  }

  function AnimatePurpose(w: World, guardian: bool): Animate.Purpose {
    if guardian then Animate.ForGuardian(w.guardian) else Animate.ForWeapon
  }

  /** What an Animate pass must clear before it looks for an item: bound, a second since the last pass, usable. */
  predicate AnimateGate(w: World, acc: Acc, guardian: bool) {
    && AnimateSlot(acc, guardian) != -1
    && Limiters.Ready(acc.st.clocks, AnimateTimer(guardian), w.now, 1000)
    && CanUseSlot(w.bar, AnimateSlot(acc, guardian))
  }

  /**
   * Animate Guardian (`guardian`) or Animate Weapon, at most once a second.
   * The picked item is remembered whether or not the use succeeds. The
   * stopwatch restarts on every pass that gets past `CanUse()`, except that
   * a successful Animate Guardian leaves it running.
   */
  function AnimateItem(w: World, acc: Acc, guardian: bool): (s: Step)
    ensures s.acc.st == acc.st.(clocks := s.acc.st.clocks, ignoredItems := s.acc.st.ignoredItems)
    ensures Limiters.NotAhead(acc.st.clocks, w.now) ==> Limiters.NotAhead(s.acc.st.clocks, w.now)
    ensures s.Done? ==> s.handled && Acted(acc, s)
    ensures !AnimateGate(w, acc, guardian) ==> s == Next(acc)
    ensures AnimateGate(w, acc, guardian) && !Acted(acc, s) ==>
              && s.Next? && s.acc.effects == acc.effects && s.acc.st.ignoredItems == acc.st.ignoredItems
              && Animate.Select(w.items, acc.st.ignoredItems, AnimatePurpose(w, guardian),
                                SkillAt(w.bar, AnimateSlot(acc, guardian)).value.maxItemLevel).pick.None?
    ensures Acted(acc, s) ==>
              && AnimateGate(w, acc, guardian)
              && s.acc.effects == acc.effects + [Last(s.acc.effects)]
              && Last(s.acc.effects).Cast? && Last(s.acc.effects).aim.OnItem?
              && Last(s.acc.effects) == Cast(AnimateSlot(acc, guardian), true, Last(s.acc.effects).aim, s.Done?)
              && (s.Done? <==> UseSucceeds(w.bar, AnimateSlot(acc, guardian)))
              && s.acc.st.ignoredItems == acc.st.ignoredItems + [Last(s.acc.effects).aim.itemId]
              && Animate.Select(w.items, acc.st.ignoredItems, AnimatePurpose(w, guardian),
                                SkillAt(w.bar, AnimateSlot(acc, guardian)).value.maxItemLevel).pick.Some?
              && Animate.Select(w.items, acc.st.ignoredItems, AnimatePurpose(w, guardian),
                                SkillAt(w.bar, AnimateSlot(acc, guardian)).value.maxItemLevel).pick.value.id
                 == Last(s.acc.effects).aim.itemId
    ensures s.acc.st.clocks
            == if AnimateGate(w, acc, guardian) && !(guardian && s.Done?)
               then Limiters.Restart(acc.st.clocks, AnimateTimer(guardian), w.now)
               else acc.st.clocks
  {
    var timer := AnimateTimer(guardian);
    var slot := AnimateSlot(acc, guardian);
    if slot == -1 || !Limiters.Ready(acc.st.clocks, timer, w.now, 1000) || !CanUseSlot(w.bar, slot) then Next(acc)
    else
      var skill := SkillAt(w.bar, slot).value;
      var sel := Animate.Select(w.items, acc.st.ignoredItems, AnimatePurpose(w, guardian), skill.maxItemLevel);
      var acc' := acc.(st := acc.st.(ignoredItems := sel.ignored));
      match sel.pick
      case None => Next(Restarted(acc', timer, w.now))
      case Some(wi) =>
        if UseSucceeds(w.bar, slot) then
          var acc' := if guardian then acc' else Restarted(acc', timer, w.now);
          Done(true, Emit(acc', Cast(slot, true, OnItem(wi.id), true)))
        else
          Next(Emit(Restarted(acc', timer, w.now), Cast(slot, true, OnItem(wi.id), false)))
  }

  /** Raise Spectre / Raise Zombie on the best corpse while fewer minions are out than allowed. */
  function RaiseCorpse(w: World, acc: Acc, role: Named): (s: Step)
    ensures s.acc.st == acc.st
    ensures s.Done? ==> s.handled
    ensures Acted(acc, s) ==>
              && w.corpse.Some?
              && CanUseSlot(w.bar, acc.st.roles.Slot(role))
              && SkillAt(w.bar, acc.st.roles.Slot(role)).value.deployed < SkillAt(w.bar, acc.st.roles.Slot(role)).value.allowed
              && s.acc.effects == acc.effects + [Cast(acc.st.roles.Slot(role), false, AtCorpse(w.corpse.value), s.Done?)]
    ensures !Acted(acc, s) ==> s == Next(acc)
    ensures Acted(acc, s) <==>
              && acc.st.roles.Slot(role) != -1
              && CanUseSlot(w.bar, acc.st.roles.Slot(role))
              && SkillAt(w.bar, acc.st.roles.Slot(role)).value.deployed < SkillAt(w.bar, acc.st.roles.Slot(role)).value.allowed
              && w.corpse.Some?
    ensures s.Done? <==> Acted(acc, s) && UseSucceeds(w.bar, acc.st.roles.Slot(role))
  {
    var slot := acc.st.roles.Slot(role);
    if slot == -1 || !CanUseSlot(w.bar, slot) then Next(acc)
    else
      var skill := SkillAt(w.bar, slot).value;
      if !(skill.deployed < skill.allowed) then Next(acc)
      else match w.corpse
        case None => Next(acc)
        case Some(id) => Attempt(acc, slot, false, AtCorpse(id), UseSucceeds(w.bar, slot))
  }

  /** Self-buffs without a limiter: cast while the buff is missing. */
  function KeepBuff(w: World, acc: Acc, role: Named, buff: Buff): (s: Step)
    ensures s.acc.st == acc.st
    ensures s.Done? ==> s.handled
    ensures Acted(acc, s) <==> acc.st.roles.Slot(role) != -1 && CanUseSlot(w.bar, acc.st.roles.Slot(role)) && buff !in w.me.buffs
    ensures Acted(acc, s) ==> UsedOnce(w, acc, s, acc.st.roles.Slot(role), true, Unaimed)
    ensures !Acted(acc, s) ==> s == Next(acc)
  {
    var slot := acc.st.roles.Slot(role);
    if slot == -1 || !CanUseSlot(w.bar, slot) || buff in w.me.buffs then Next(acc)
    else Attempt(acc, slot, true, Unaimed, UseSucceeds(w.bar, slot))
  }

  /** Enduring Cry has a cooldown of its own: cast whenever a monster is within 30. */
  function RefreshEndurance(w: World, acc: Acc): (s: Step)
    ensures s.acc.st == acc.st
    ensures s.Done? ==> s.handled
    ensures Acted(acc, s) <==> acc.st.roles.Slot(EnduringCry) != -1 && CanUseSlot(w.bar, acc.st.roles.Slot(EnduringCry)) && w.mobsNearMe30 > 0
    ensures Acted(acc, s) ==> UsedOnce(w, acc, s, acc.st.roles.Slot(EnduringCry), true, Unaimed)
    ensures !Acted(acc, s) ==> s == Next(acc)
  {
    var slot := acc.st.roles.Slot(EnduringCry);
    if slot == -1 || !CanUseSlot(w.bar, slot) || !(w.mobsNearMe30 > 0) then Next(acc)
    else Attempt(acc, slot, true, Unaimed, UseSucceeds(w.bar, slot))
  }

  /**
   * Molten Shell, limited by its own delay with an inclusive gate; the
   * stopwatch restarts on every use call, successful or not.
   */
  function ShieldWithMoltenShell(w: World, cfg: Config.Settings, acc: Acc): (s: Step)
    ensures Limiters.NotAhead(acc.st.clocks, w.now) ==> Limiters.NotAhead(s.acc.st.clocks, w.now)
    ensures s.Done? ==> s.handled
    ensures Acted(acc, s) <==>
              && acc.st.roles.Slot(MoltenShell) != -1
              && Limiters.ReadyAtLeast(acc.st.clocks, Limiters.MoltenShellTimer, w.now, cfg.moltenShellDelayMs)
              && MoltenShellUp !in w.me.buffs
              && CanUseSlot(w.bar, acc.st.roles.Slot(MoltenShell))
              && w.mobsNearMeCombat > 0
    ensures Acted(acc, s) ==> s.acc.st == acc.st.(clocks := Limiters.Restart(acc.st.clocks, Limiters.MoltenShellTimer, w.now))
    ensures Acted(acc, s) ==> UsedOnce(w, acc, s, acc.st.roles.Slot(MoltenShell), true, Unaimed)
    ensures !Acted(acc, s) ==> s == Next(acc)
  {
    var slot := acc.st.roles.Slot(MoltenShell);
    if slot == -1 || !Limiters.ReadyAtLeast(acc.st.clocks, Limiters.MoltenShellTimer, w.now, cfg.moltenShellDelayMs) then Next(acc)
    else if MoltenShellUp in w.me.buffs || !CanUseSlot(w.bar, slot) || !(w.mobsNearMeCombat > 0) then Next(acc)
    else Attempt(Restarted(acc, Limiters.MoltenShellTimer, w.now), slot, true, Unaimed, UseSucceeds(w.bar, slot))
  }

  /** An aura the sweep would try: an aura skill whose aura the player lacks, and usable. */
  predicate AuraCandidate(w: World, cfg: Config.Settings, s: Skill) {
    IsAuraSkill(s, cfg.enableAurasFromItems) && s.name !in w.me.auras && s.canUse
  }

  /** The sweep casts this candidate: it is on the bar or can be put there, and its use call succeeds. */
  predicate AuraLands(s: Skill) {
    (s.slot != -1 || !s.setSlotFails) && !s.useFails
  }

  /**
   * The sweep over the whole skill list: a candidate not on the bar is first
   * bound to the aura slot (skipped if that fails), then used; the first
   * successful use ends the tick.
   */
  function AuraSweep(w: World, cfg: Config.Settings, auraSlot: int, acc: Acc, rest: seq<Skill>): (s: Step)
    decreases |rest|
    ensures s.acc.st == acc.st
    ensures s.Done? ==> s.handled
    ensures s.Done? <==> exists i :: 0 <= i < |rest| && AuraCandidate(w, cfg, rest[i]) && AuraLands(rest[i])
    ensures |acc.effects| <= |s.acc.effects| && s.acc.effects[..|acc.effects|] == acc.effects
  {
    if |rest| == 0 then Next(acc)
    else
      var sk := rest[0];
      assert forall i :: 1 <= i < |rest| ==> rest[i] == rest[1..][i - 1];
      if !AuraCandidate(w, cfg, sk) then AuraSweep(w, cfg, auraSlot, acc, rest[1..])
      else if sk.slot == -1 && sk.setSlotFails then
        AuraSweep(w, cfg, auraSlot, Emit(acc, Bind(auraSlot, sk.id, false)), rest[1..])
      else
        var bound := if sk.slot == -1 then Emit(acc, Bind(auraSlot, sk.id, true)) else acc;
        var slot := if sk.slot == -1 then auraSlot else sk.slot;
        match Attempt(bound, slot, false, Unaimed, !sk.useFails)
        case Done(h, a) => Done(h, a)
        case Next(a) => AuraSweep(w, cfg, auraSlot, a, rest[1..])
  }

  /** The slot a candidate is used from: its own, or the aura slot it is bound to first. */
  function AuraUseSlot(sk: Skill, auraSlot: int): int {
    if sk.slot == -1 then auraSlot else sk.slot
  }

  /**
   * The sweep gets as far as the `j`th skill: it is a candidate, and every
   * earlier candidate failed to land.
   */
  predicate AuraReached(w: World, cfg: Config.Settings, rest: seq<Skill>, j: int) {
    && 0 <= j < |rest| && AuraCandidate(w, cfg, rest[j])
    && forall i :: 0 <= i < j && AuraCandidate(w, cfg, rest[i]) ==> !AuraLands(rest[i])
  }

  /**
   * `calls` holds, for every candidate the sweep reaches, its bind to the aura
   * slot with the result `SetSlot` reports when it is off the bar, and its
   * use, not in place and unaimed, with the reported result unless that bind
   * failed.
   */
  ghost predicate AuraCallsCover(w: World, cfg: Config.Settings, auraSlot: int, rest: seq<Skill>, calls: seq<Effect>) {
    && (forall j :: AuraReached(w, cfg, rest, j) && rest[j].slot == -1 ==>
          Bind(auraSlot, rest[j].id, !rest[j].setSlotFails) in calls)
    && (forall j :: AuraReached(w, cfg, rest, j) && (rest[j].slot != -1 || !rest[j].setSlotFails) ==>
          Cast(AuraUseSlot(rest[j], auraSlot), false, Unaimed, !rest[j].useFails) in calls)
  }

  /** Every call is a bind to the aura slot or an unaimed use not in place. */
  predicate AuraCallShape(auraSlot: int, calls: seq<Effect>) {
    forall e :: e in calls ==> (e.Bind? && e.slot == auraSlot) || (e.Cast? && !e.inPlace && e.aim == Unaimed)
  }

  /**
   * The calls of the aura sweep: every candidate it reaches is bound when
   * off the bar and then used, in bar order; it calls nothing else; and a
   * handled sweep ends with the successful use of the first candidate that
   * lands.
   */
  lemma {:induction false} AuraSweepCalls(w: World, cfg: Config.Settings, auraSlot: int, acc: Acc, rest: seq<Skill>)
    ensures var s := AuraSweep(w, cfg, auraSlot, acc, rest);
            && AuraCallsCover(w, cfg, auraSlot, rest, s.acc.effects[|acc.effects|..])
            && AuraCallShape(auraSlot, s.acc.effects[|acc.effects|..])
            && (s.Done? ==> exists k :: AuraReached(w, cfg, rest, k) && AuraLands(rest[k]) && Acted(acc, s)
                                        && Last(s.acc.effects) == Cast(AuraUseSlot(rest[k], auraSlot), false, Unaimed, true))
    decreases |rest|
  {
    if |rest| > 0 {
      var sk := rest[0];
      var s := AuraSweep(w, cfg, auraSlot, acc, rest);
      if AuraCandidate(w, cfg, sk) && AuraLands(sk) {
        AuraLandStep(w, cfg, auraSlot, acc, rest);
      } else {
        var a := AuraSweepHead(w, cfg, auraSlot, acc, rest);
        AuraSweepCalls(w, cfg, auraSlot, a, rest[1..]);
        AuraPassStep(w, cfg, auraSlot, acc, rest);
      }
    }
  }

  /** The calls the sweep makes for a first skill that does not land, after which it moves on. */
  function AuraSweepHead(w: World, cfg: Config.Settings, auraSlot: int, acc: Acc, rest: seq<Skill>): (a: Acc)
    requires |rest| > 0
    ensures |acc.effects| <= |a.effects| && a.effects[..|acc.effects|] == acc.effects
  {
    var sk := rest[0];
    if !AuraCandidate(w, cfg, sk) then acc
    else if sk.slot == -1 && sk.setSlotFails then Emit(acc, Bind(auraSlot, sk.id, false))
    else
      var bound := if sk.slot == -1 then Emit(acc, Bind(auraSlot, sk.id, true)) else acc;
      Emit(bound, Cast(AuraUseSlot(sk, auraSlot), false, Unaimed, !sk.useFails))
  }

  /** A first skill that does not land leaves the sweep to the rest, after its own calls. */
  lemma AuraPassUnfolds(w: World, cfg: Config.Settings, auraSlot: int, acc: Acc, rest: seq<Skill>)
    requires |rest| > 0 && !(AuraCandidate(w, cfg, rest[0]) && AuraLands(rest[0]))
    ensures AuraSweep(w, cfg, auraSlot, acc, rest) == AuraSweep(w, cfg, auraSlot, AuraSweepHead(w, cfg, auraSlot, acc, rest), rest[1..])
  {
  }

  /** A first skill past which the sweep moves on: its own calls, then those of the rest. */
  lemma AuraPassStep(w: World, cfg: Config.Settings, auraSlot: int, acc: Acc, rest: seq<Skill>)
    requires |rest| > 0 && !(AuraCandidate(w, cfg, rest[0]) && AuraLands(rest[0]))
    requires var a := AuraSweepHead(w, cfg, auraSlot, acc, rest);
             var s := AuraSweep(w, cfg, auraSlot, a, rest[1..]);
             && AuraCallsCover(w, cfg, auraSlot, rest[1..], s.acc.effects[|a.effects|..])
             && AuraCallShape(auraSlot, s.acc.effects[|a.effects|..])
             && (s.Done? ==> exists k :: AuraReached(w, cfg, rest[1..], k) && AuraLands(rest[1..][k]) && Acted(a, s)
                                         && Last(s.acc.effects) == Cast(AuraUseSlot(rest[1..][k], auraSlot), false, Unaimed, true))
    ensures var s := AuraSweep(w, cfg, auraSlot, acc, rest);
            && AuraCallsCover(w, cfg, auraSlot, rest, s.acc.effects[|acc.effects|..])
            && AuraCallShape(auraSlot, s.acc.effects[|acc.effects|..])
            && (s.Done? ==> exists k :: AuraReached(w, cfg, rest, k) && AuraLands(rest[k]) && Acted(acc, s)
                                        && Last(s.acc.effects) == Cast(AuraUseSlot(rest[k], auraSlot), false, Unaimed, true))
  {
    var a := AuraSweepHead(w, cfg, auraSlot, acc, rest);
    AuraPassUnfolds(w, cfg, auraSlot, acc, rest);
    var s := AuraSweep(w, cfg, auraSlot, a, rest[1..]);
    var effects := s.acc.effects;
    assert effects[..|a.effects|] == a.effects;
    var n := |a.effects| - |acc.effects|;
    var calls := effects[|acc.effects|..];
    assert calls[..n] == a.effects[|acc.effects|..];
    assert calls[n..] == effects[|a.effects|..];
    AuraHeadCalls(w, cfg, auraSlot, acc, rest);
    AuraCoverAfter(w, cfg, auraSlot, rest, calls, n);
    if s.Done? {
      var k :| AuraReached(w, cfg, rest[1..], k) && AuraLands(rest[1..][k]) && Acted(a, s)
               && Last(s.acc.effects) == Cast(AuraUseSlot(rest[1..][k], auraSlot), false, Unaimed, true);
      AuraReachedShiftsUp(w, cfg, rest, k);
    }
  }

  /** What the head's own calls are. */
  lemma AuraHeadCalls(w: World, cfg: Config.Settings, auraSlot: int, acc: Acc, rest: seq<Skill>)
    requires |rest| > 0
    ensures var own := AuraSweepHead(w, cfg, auraSlot, acc, rest).effects[|acc.effects|..];
            && AuraCallShape(auraSlot, own)
            && (AuraCandidate(w, cfg, rest[0]) && rest[0].slot == -1 ==> Bind(auraSlot, rest[0].id, !rest[0].setSlotFails) in own)
            && (AuraCandidate(w, cfg, rest[0]) && (rest[0].slot != -1 || !rest[0].setSlotFails) ==>
                  Cast(AuraUseSlot(rest[0], auraSlot), false, Unaimed, !rest[0].useFails) in own)
  {
    var sk := rest[0];
    var own := AuraSweepHead(w, cfg, auraSlot, acc, rest).effects[|acc.effects|..];
    if !AuraCandidate(w, cfg, sk) {
      assert own == [];
    } else if sk.slot == -1 && sk.setSlotFails {
      assert own == [Bind(auraSlot, sk.id, false)];
    } else if sk.slot == -1 {
      assert own == [Bind(auraSlot, sk.id, true), Cast(auraSlot, false, Unaimed, !sk.useFails)];
    } else {
      assert own == [Cast(sk.slot, false, Unaimed, !sk.useFails)];
    }
  }

  /** Membership only: the head's calls followed by calls covering the rest cover the whole list. */
  lemma AuraCoverAfter(w: World, cfg: Config.Settings, auraSlot: int, rest: seq<Skill>, calls: seq<Effect>, n: int)
    requires |rest| > 0 && 0 <= n <= |calls|
    requires AuraCandidate(w, cfg, rest[0]) ==> !AuraLands(rest[0])
    requires AuraCandidate(w, cfg, rest[0]) && rest[0].slot == -1 ==> Bind(auraSlot, rest[0].id, !rest[0].setSlotFails) in calls[..n]
    requires AuraCandidate(w, cfg, rest[0]) && (rest[0].slot != -1 || !rest[0].setSlotFails) ==>
               Cast(AuraUseSlot(rest[0], auraSlot), false, Unaimed, !rest[0].useFails) in calls[..n]
    requires AuraCallShape(auraSlot, calls[..n]) && AuraCallShape(auraSlot, calls[n..])
    requires AuraCallsCover(w, cfg, auraSlot, rest[1..], calls[n..])
    ensures AuraCallsCover(w, cfg, auraSlot, rest, calls)
    ensures AuraCallShape(auraSlot, calls)
  {
    assert calls == calls[..n] + calls[n..];
    forall j | AuraReached(w, cfg, rest, j) && j > 0
      ensures AuraReached(w, cfg, rest[1..], j - 1) && rest[1..][j - 1] == rest[j]
    {
      assert forall i :: 1 <= i < |rest| ==> rest[i] == rest[1..][i - 1];
    }
  }

  /** A reached index of the rest is reached one place later in the whole list, when the first skill does not land. */
  lemma AuraReachedShiftsUp(w: World, cfg: Config.Settings, rest: seq<Skill>, k: int)
    requires |rest| > 0 && (AuraCandidate(w, cfg, rest[0]) ==> !AuraLands(rest[0]))
    requires AuraReached(w, cfg, rest[1..], k)
    ensures AuraReached(w, cfg, rest, k + 1) && rest[k + 1] == rest[1..][k]
  {
    assert forall i :: 1 <= i < |rest| ==> rest[i] == rest[1..][i - 1];
  }

  /** A first candidate that lands: its bind, if any, and its successful use are the only calls. */
  lemma AuraLandStep(w: World, cfg: Config.Settings, auraSlot: int, acc: Acc, rest: seq<Skill>)
    requires |rest| > 0 && AuraCandidate(w, cfg, rest[0]) && AuraLands(rest[0])
    ensures var s := AuraSweep(w, cfg, auraSlot, acc, rest);
            && AuraCallsCover(w, cfg, auraSlot, rest, s.acc.effects[|acc.effects|..])
            && AuraCallShape(auraSlot, s.acc.effects[|acc.effects|..])
            && (s.Done? ==> exists k :: AuraReached(w, cfg, rest, k) && AuraLands(rest[k]) && Acted(acc, s)
                                        && Last(s.acc.effects) == Cast(AuraUseSlot(rest[k], auraSlot), false, Unaimed, true))
  {
    var sk := rest[0];
    var s := AuraSweep(w, cfg, auraSlot, acc, rest);
    var use := Cast(AuraUseSlot(sk, auraSlot), false, Unaimed, true);
    var own := if sk.slot == -1 then [Bind(auraSlot, sk.id, true), use] else [use];
    assert s.acc.effects == acc.effects + own;
    assert s.acc.effects[|acc.effects|..] == own;
    assert AuraReached(w, cfg, rest, 0);
  }

  /**
   * Auras: first the skill in the aura slot if its aura is missing, then the
   * sweep over every skill. Nothing happens while no aura slot is known.
   */
  function MaintainAuras(w: World, cfg: Config.Settings, acc: Acc): (s: Step)
    ensures s.acc.st == acc.st
    ensures s.Done? ==> s.handled
    ensures acc.st.roles.aura == -1 || SkillAt(w.bar, acc.st.roles.aura).None? ==> s == Next(acc)
    ensures s.Done? <==>
              && acc.st.roles.aura != -1
              && SkillAt(w.bar, acc.st.roles.aura).Some?
              && ((&& SkillAt(w.bar, acc.st.roles.aura).value.name !in w.me.auras
                   && CanUseSlot(w.bar, acc.st.roles.aura)
                   && UseSucceeds(w.bar, acc.st.roles.aura))
                  || exists i :: 0 <= i < |w.bar| && AuraCandidate(w, cfg, w.bar[i]) && AuraLands(w.bar[i]))
    ensures |acc.effects| <= |s.acc.effects| && s.acc.effects[..|acc.effects|] == acc.effects
    ensures && acc.st.roles.aura != -1 && SkillAt(w.bar, acc.st.roles.aura).Some?
            && SkillAt(w.bar, acc.st.roles.aura).value.name !in w.me.auras && CanUseSlot(w.bar, acc.st.roles.aura) ==>
              && |s.acc.effects| > |acc.effects|
              && s.acc.effects[|acc.effects|] == Cast(acc.st.roles.aura, false, Unaimed, UseSucceeds(w.bar, acc.st.roles.aura))
              && (UseSucceeds(w.bar, acc.st.roles.aura) ==>
                    s.acc.effects == acc.effects + [Cast(acc.st.roles.aura, false, Unaimed, true)])
  {
    var slot := acc.st.roles.aura;
    if slot == -1 || SkillAt(w.bar, slot).None? then Next(acc)
    else
      var aura := SkillAt(w.bar, slot).value;
      var first :=
        if aura.name !in w.me.auras && aura.canUse then Attempt(acc, slot, false, Unaimed, UseSucceeds(w.bar, slot))
        else Next(acc);
      if first.Done? then first else AuraSweep(w, cfg, slot, first.acc, w.bar)
  }

  /**
   * The calls of the aura rule: binds to the aura slot and unaimed uses not
   * in place only; when the slotted aura is not used successfully, the sweep
   * binds and uses every candidate it reaches; and a handled rule ends with
   * the successful use of the slotted aura or of the first candidate that
   * lands.
   */
  lemma MaintainAurasCalls(w: World, cfg: Config.Settings, acc: Acc)
    ensures var s := MaintainAuras(w, cfg, acc);
            var slot := acc.st.roles.aura;
            && AuraCallShape(slot, s.acc.effects[|acc.effects|..])
            && (&& slot != -1 && SkillAt(w.bar, slot).Some?
                && !(SkillAt(w.bar, slot).value.name !in w.me.auras && CanUseSlot(w.bar, slot) && UseSucceeds(w.bar, slot)) ==>
                  AuraCallsCover(w, cfg, slot, w.bar, s.acc.effects[|acc.effects|..]))
            && (s.Done? ==>
                  && Acted(acc, s)
                  && (|| Last(s.acc.effects) == Cast(slot, false, Unaimed, true)
                      || exists k :: AuraReached(w, cfg, w.bar, k) && AuraLands(w.bar[k])
                                     && Last(s.acc.effects) == Cast(AuraUseSlot(w.bar[k], slot), false, Unaimed, true)))
  {
    var slot := acc.st.roles.aura;
    var s := MaintainAuras(w, cfg, acc);
    if slot != -1 && SkillAt(w.bar, slot).Some? {
      var aura := SkillAt(w.bar, slot).value;
      var first :=
        if aura.name !in w.me.auras && aura.canUse then Attempt(acc, slot, false, Unaimed, UseSucceeds(w.bar, slot))
        else Next(acc);
      if first.Done? {
        assert s.acc.effects[|acc.effects|..] == [Cast(slot, false, Unaimed, true)];
      } else {
        assert first.acc.effects[|acc.effects|..] == [] || first.acc.effects[|acc.effects|..] == [Cast(slot, false, Unaimed, false)];
        AuraSweepAfter(w, cfg, slot, acc, first.acc);
      }
    }
  }

  /** The sweep's calls, counted from an earlier point whose extra calls already have the aura shape. */
  lemma AuraSweepAfter(w: World, cfg: Config.Settings, auraSlot: int, acc: Acc, a: Acc)
    requires |acc.effects| <= |a.effects| && a.effects[..|acc.effects|] == acc.effects
    requires AuraCallShape(auraSlot, a.effects[|acc.effects|..])
    ensures var s := AuraSweep(w, cfg, auraSlot, a, w.bar);
            && AuraCallShape(auraSlot, s.acc.effects[|acc.effects|..])
            && AuraCallsCover(w, cfg, auraSlot, w.bar, s.acc.effects[|acc.effects|..])
            && (s.Done? ==> && |s.acc.effects| > |acc.effects|
                            && exists k :: AuraReached(w, cfg, w.bar, k) && AuraLands(w.bar[k])
                                           && Last(s.acc.effects) == Cast(AuraUseSlot(w.bar[k], auraSlot), false, Unaimed, true))
  {
    var s := AuraSweep(w, cfg, auraSlot, a, w.bar);
    AuraSweepCalls(w, cfg, auraSlot, a, w.bar);
    SplitCalls(acc.effects, a.effects, s.acc.effects);
    AuraCoverWidens(w, cfg, auraSlot, w.bar, s.acc.effects[|a.effects|..], s.acc.effects[|acc.effects|..]);
  }

  /**
   * Membership only: with `a` extending `e0` and `e` extending `a`, the calls
   * after `e0` are those after `e0` up to `a`, then those after `a`.
   */
  lemma SplitCalls(e0: seq<Effect>, a: seq<Effect>, e: seq<Effect>)
    requires |e0| <= |a| <= |e| && a[..|e0|] == e0 && e[..|a|] == a
    ensures forall x :: x in e[|a|..] ==> x in e[|e0|..]
    ensures forall x :: x in e[|e0|..] ==> x in a[|e0|..] || x in e[|a|..]
  {
    var calls := e[|e0|..];
    var n := |a| - |e0|;
    assert calls[n..] == e[|a|..];
    assert calls[..n] == a[|e0|..];
    assert calls == calls[..n] + calls[n..];
  }

  /** Coverage survives adding calls. */
  lemma AuraCoverWidens(w: World, cfg: Config.Settings, auraSlot: int, rest: seq<Skill>, later: seq<Effect>, calls: seq<Effect>)
    requires AuraCallsCover(w, cfg, auraSlot, rest, later)
    requires forall x :: x in later ==> x in calls
    ensures AuraCallsCover(w, cfg, auraSlot, rest, calls)
  {
  }

  /** Start a Flameblast channel when at least four monsters are within 15; this ends the tick. */
  function StartFlameblast(w: World, acc: Acc): (s: Step)
    ensures s.Done? <==> acc.st.roles.Slot(Flameblast) != -1 && w.mobsNearMe15 >= 4
    ensures s.Done? ==> s.handled && s.acc == acc.(st := acc.st.(channel := Channel.Entered))
    ensures s.Next? ==> s.acc == acc
  {
    if acc.st.roles.Slot(Flameblast) == -1 || !(w.mobsNearMe15 >= 4) then Next(acc)
    else Done(true, acc.(st := acc.st.(channel := Channel.Entered)))
  }

  // ------------------------------------------------------ engagement rules

  /**
   * The reachability ladder: an unreachable target is blacklisted for a
   * minute; one beyond the combat range ends the tick as not handled; one
   * out of sight or behind a closed door is walked toward.
   */
  function CheckReach(cfg: Config.Settings, t: Target, acc: Acc): (s: Step)
    ensures s.acc.st == acc.st
    ensures t.path.Unreachable? ==> s == Done(true, Emit(acc, BlacklistTarget(t.id, Blacklist.MinuteMs)))
    ensures s.Done? && !s.handled <==> TooFar(cfg, t)
    ensures TooFar(cfg, t) ==> s.acc == Emit(acc, EnableHighlight)
    ensures s.Next? <==> t.path.Path? && !TooFar(cfg, t) && t.canSee && !t.doorBetween
    ensures s.Next? ==> s.acc == acc
    ensures t.path.Path? && !TooFar(cfg, t) && (!t.canSee || t.doorBetween) ==> s == Done(true, Emit(acc, MoveTowardTarget))
  {
    match t.path
    case Unreachable => Done(true, Emit(acc, BlacklistTarget(t.id, Blacklist.MinuteMs)))
    case Path(length) =>
      if length > cfg.combatRange as real then Done(false, Emit(acc, EnableHighlight))
      else if !t.canSee || t.doorBetween then Done(true, Emit(acc, MoveTowardTarget))
      else Next(acc)
  }

  /** A totem halfway to the target while fewer live totems are near than the player may have. */
  function PlaceTotem(w: World, cfg: Config.Settings, acc: Acc): (s: Step)
    ensures Limiters.NotAhead(acc.st.clocks, w.now) ==> Limiters.NotAhead(s.acc.st.clocks, w.now)
    ensures s.Done? ==> s.handled
    ensures Acted(acc, s) <==>
              && acc.st.roles.totem != -1
              && Limiters.Ready(acc.st.clocks, Limiters.TotemTimer, w.now, cfg.totemDelayMs)
              && CanUseSlot(w.bar, acc.st.roles.totem)
              && w.liveTotemsNear < w.me.maxTotemCount
    ensures Acted(acc, s) ==> s.acc.st == acc.st.(clocks := Limiters.Restart(acc.st.clocks, Limiters.TotemTimer, w.now))
    ensures Acted(acc, s) ==> UsedOnce(w, acc, s, acc.st.roles.totem, true, HalfwayToTarget)
    ensures !Acted(acc, s) ==> s == Next(acc)
  {
    var slot := acc.st.roles.totem;
    if slot == -1 || !Limiters.Ready(acc.st.clocks, Limiters.TotemTimer, w.now, cfg.totemDelayMs) then Next(acc)
    else if !CanUseSlot(w.bar, slot) || !(w.liveTotemsNear < w.me.maxTotemCount) then Next(acc)
    else Attempt(Restarted(acc, Limiters.TotemTimer, w.now), slot, true, HalfwayToTarget, UseSucceeds(w.bar, slot))
  }

  /** A trap halfway to the target. */
  function PlaceTrap(w: World, cfg: Config.Settings, acc: Acc): (s: Step)
    ensures Limiters.NotAhead(acc.st.clocks, w.now) ==> Limiters.NotAhead(s.acc.st.clocks, w.now)
    ensures s.Done? ==> s.handled
    ensures Acted(acc, s) <==>
              && acc.st.roles.trap != -1
              && Limiters.Ready(acc.st.clocks, Limiters.TrapTimer, w.now, cfg.trapDelayMs)
              && CanUseSlot(w.bar, acc.st.roles.trap)
    ensures Acted(acc, s) ==> s.acc.st == acc.st.(clocks := Limiters.Restart(acc.st.clocks, Limiters.TrapTimer, w.now))
    ensures Acted(acc, s) ==> UsedOnce(w, acc, s, acc.st.roles.trap, true, HalfwayToTarget)
    ensures !Acted(acc, s) ==> s == Next(acc)
  {
    var slot := acc.st.roles.trap;
    if slot == -1 || !Limiters.Ready(acc.st.clocks, Limiters.TrapTimer, w.now, cfg.trapDelayMs) then Next(acc)
    else if !CanUseSlot(w.bar, slot) then Next(acc)
    else Attempt(Restarted(acc, Limiters.TrapTimer, w.now), slot, true, HalfwayToTarget, UseSucceeds(w.bar, slot))
  }

  /** Curses are considered only for a target within ranged range that is magic or better, or in a pack of three. */
  predicate CurseWindow(cfg: Config.Settings, t: Target) {
    t.distance < cfg.maxRangeRange as real && (t.rarity.AtLeast(Magic) || t.mobsNear >= 3)
  }

  /** The curse in `slot` may go on the target: usable, target cursable with room left, and not already carrying it. */
  predicate CurseApplies(w: World, t: Target, slot: int) {
    && CanUseSlot(w.bar, slot)
    && t.cursable
    && t.curseCount < w.me.totalCursesAllowed
    && SkillAt(w.bar, slot).value.name !in t.curses
  }

  /** Try the curse slots in order; a failed use moves on to the next one. */
  function CurseSweep(w: World, t: Target, acc: Acc, slots: seq<int>): (s: Step)
    decreases |slots|
    ensures s.acc.st == acc.st
    ensures s.Done? ==> s.handled
    ensures s.Done? <==> exists i :: 0 <= i < |slots| && CurseApplies(w, t, slots[i]) && UseSucceeds(w.bar, slots[i])
    ensures s.Done? ==> exists k :: FirstLanding(w, t, slots, k) && Acted(acc, s) && Last(s.acc.effects) == Cast(slots[k], true, AtTarget, true)
    ensures |acc.effects| <= |s.acc.effects| && s.acc.effects[..|acc.effects|] == acc.effects
    ensures forall e :: e in s.acc.effects[|acc.effects|..] ==> e.Cast? && e.slot in slots && CurseApplies(w, t, e.slot) && e.aim == AtTarget
  {
    if |slots| == 0 then Next(acc)
    else
      assert forall i :: 1 <= i < |slots| ==> slots[i] == slots[1..][i - 1];
      if !CurseApplies(w, t, slots[0]) then
        LandingShifts(w, t, slots);
        CurseSweep(w, t, acc, slots[1..])
      else match Attempt(acc, slots[0], true, AtTarget, UseSucceeds(w.bar, slots[0]))
        case Done(h, a) =>
          assert FirstLanding(w, t, slots, 0);
          Done(h, a)
        case Next(a) =>
          LandingShifts(w, t, slots);
          var s := CurseSweep(w, t, a, slots[1..]);
          assert s.acc.effects[|acc.effects|..] == [a.effects[|acc.effects|]] + s.acc.effects[|a.effects|..];
          s
  }

  /**
   * The `k`th curse slot is the one that lands: it applies and its use
   * succeeds, and every applicable slot before it was used and failed.
   */
  predicate FirstLanding(w: World, t: Target, slots: seq<int>, k: int) {
    && 0 <= k < |slots|
    && CurseApplies(w, t, slots[k]) && UseSucceeds(w.bar, slots[k])
    && forall j :: 0 <= j < k && CurseApplies(w, t, slots[j]) ==> !UseSucceeds(w.bar, slots[j])
  }

  /** A first slot that does not land moves every landing index of the rest up by one. */
  lemma LandingShifts(w: World, t: Target, slots: seq<int>)
    requires |slots| > 0 && (CurseApplies(w, t, slots[0]) ==> !UseSucceeds(w.bar, slots[0]))
    ensures forall k :: FirstLanding(w, t, slots[1..], k) ==> FirstLanding(w, t, slots, k + 1)
  {
  }

  /**
   * The sweep gets as far as the `j`th slot: it applies, and every earlier
   * applicable slot's use failed.
   */
  predicate CurseReached(w: World, t: Target, slots: seq<int>, j: int) {
    && 0 <= j < |slots| && CurseApplies(w, t, slots[j])
    && forall i :: 0 <= i < j && CurseApplies(w, t, slots[i]) ==> !UseSucceeds(w.bar, slots[i])
  }

  /**
   * Every slot the curse sweep reaches is actually used, at the target and
   * in place, with the result that use reports: in particular every
   * applicable slot before the one that lands was used and failed.
   */
  lemma {:induction false} CurseSweepCalls(w: World, t: Target, acc: Acc, slots: seq<int>)
    ensures forall j :: CurseReached(w, t, slots, j) ==>
              Cast(slots[j], true, AtTarget, UseSucceeds(w.bar, slots[j])) in CurseSweep(w, t, acc, slots).acc.effects[|acc.effects|..]
    decreases |slots|
  {
    if |slots| > 0 {
      if !CurseApplies(w, t, slots[0]) {
        CurseSweepCalls(w, t, acc, slots[1..]);
        CurseSkipStep(w, t, acc, slots);
      } else if UseSucceeds(w.bar, slots[0]) {
        CurseLandStep(w, t, acc, slots);
      } else {
        var a := Emit(acc, Cast(slots[0], true, AtTarget, false));
        CurseSweepCalls(w, t, a, slots[1..]);
        CurseFailStep(w, t, acc, slots);
      }
    }
  }

  /** A slot that does not apply adds no call: the calls are those of the rest. */
  lemma CurseSkipStep(w: World, t: Target, acc: Acc, slots: seq<int>)
    requires |slots| > 0 && !CurseApplies(w, t, slots[0])
    requires forall j :: CurseReached(w, t, slots[1..], j) ==>
               Cast(slots[1..][j], true, AtTarget, UseSucceeds(w.bar, slots[1..][j])) in CurseSweep(w, t, acc, slots[1..]).acc.effects[|acc.effects|..]
    ensures forall j :: CurseReached(w, t, slots, j) ==>
              Cast(slots[j], true, AtTarget, UseSucceeds(w.bar, slots[j])) in CurseSweep(w, t, acc, slots).acc.effects[|acc.effects|..]
  {
    assert CurseSweep(w, t, acc, slots) == CurseSweep(w, t, acc, slots[1..]);
    forall j | CurseReached(w, t, slots, j)
      ensures Cast(slots[j], true, AtTarget, UseSucceeds(w.bar, slots[j])) in CurseSweep(w, t, acc, slots).acc.effects[|acc.effects|..]
    {
      CurseReachedShifts(w, t, slots, j);
    }
  }

  /** A first slot that lands is the only call. */
  lemma CurseLandStep(w: World, t: Target, acc: Acc, slots: seq<int>)
    requires |slots| > 0 && CurseApplies(w, t, slots[0]) && UseSucceeds(w.bar, slots[0])
    ensures forall j :: CurseReached(w, t, slots, j) ==>
              Cast(slots[j], true, AtTarget, UseSucceeds(w.bar, slots[j])) in CurseSweep(w, t, acc, slots).acc.effects[|acc.effects|..]
  {
    var s := CurseSweep(w, t, acc, slots);
    assert s.acc.effects == acc.effects + [Cast(slots[0], true, AtTarget, true)];
    assert s.acc.effects[|acc.effects|..] == [Cast(slots[0], true, AtTarget, true)];
  }

  /** A first slot that fails is called, followed by the calls of the rest. */
  lemma CurseFailStep(w: World, t: Target, acc: Acc, slots: seq<int>)
    requires |slots| > 0 && CurseApplies(w, t, slots[0]) && !UseSucceeds(w.bar, slots[0])
    requires var a := Emit(acc, Cast(slots[0], true, AtTarget, false));
             forall j :: CurseReached(w, t, slots[1..], j) ==>
               Cast(slots[1..][j], true, AtTarget, UseSucceeds(w.bar, slots[1..][j])) in CurseSweep(w, t, a, slots[1..]).acc.effects[|a.effects|..]
    ensures forall j :: CurseReached(w, t, slots, j) ==>
              Cast(slots[j], true, AtTarget, UseSucceeds(w.bar, slots[j])) in CurseSweep(w, t, acc, slots).acc.effects[|acc.effects|..]
  {
    var a := Emit(acc, Cast(slots[0], true, AtTarget, false));
    CurseFailUnfolds(w, t, acc, slots);
    var effects := CurseSweep(w, t, a, slots[1..]).acc.effects;
    assert effects[..|a.effects|] == a.effects;
    var calls := effects[|acc.effects|..];
    assert calls[0] == a.effects[|acc.effects|];
    assert calls[1..] == effects[|a.effects|..];
    ReachedAfterFailure(w, t, slots, calls);
  }

  /** Membership only: a failed first use followed by the calls of the rest covers every reached slot. */
  lemma ReachedAfterFailure(w: World, t: Target, slots: seq<int>, calls: seq<Effect>)
    requires |slots| > 0 && CurseApplies(w, t, slots[0]) && !UseSucceeds(w.bar, slots[0])
    requires |calls| > 0 && calls[0] == Cast(slots[0], true, AtTarget, false)
    requires forall j :: CurseReached(w, t, slots[1..], j) ==> Cast(slots[1..][j], true, AtTarget, UseSucceeds(w.bar, slots[1..][j])) in calls[1..]
    ensures forall j :: CurseReached(w, t, slots, j) ==> Cast(slots[j], true, AtTarget, UseSucceeds(w.bar, slots[j])) in calls
  {
    forall j | CurseReached(w, t, slots, j)
      ensures Cast(slots[j], true, AtTarget, UseSucceeds(w.bar, slots[j])) in calls
    {
      if j > 0 {
        CurseReachedShifts(w, t, slots, j);
      }
    }
  }

  lemma CurseFailUnfolds(w: World, t: Target, acc: Acc, slots: seq<int>)
    requires |slots| > 0 && CurseApplies(w, t, slots[0]) && !UseSucceeds(w.bar, slots[0])
    ensures CurseSweep(w, t, acc, slots) == CurseSweep(w, t, Emit(acc, Cast(slots[0], true, AtTarget, false)), slots[1..])
  {
  }

  /** A slot the sweep reaches past the first one is reached, one place earlier, by the sweep over the rest. */
  lemma CurseReachedShifts(w: World, t: Target, slots: seq<int>, j: int)
    requires 1 <= j && CurseReached(w, t, slots, j)
    ensures CurseReached(w, t, slots[1..], j - 1) && slots[1..][j - 1] == slots[j]
  {
    assert forall i :: 1 <= i < |slots| ==> slots[i] == slots[1..][i - 1];
  }

  /** The curse gate: outside the window no curse is tried. */
  function ApplyCurses(w: World, cfg: Config.Settings, t: Target, acc: Acc): (s: Step)
    ensures s.acc.st == acc.st
    ensures s.Done? ==> s.handled
    ensures !CurseWindow(cfg, t) ==> s == Next(acc)
    ensures s.Done? <==>
              && CurseWindow(cfg, t)
              && exists i :: 0 <= i < |acc.st.roles.curses| && CurseApplies(w, t, acc.st.roles.curses[i]) && UseSucceeds(w.bar, acc.st.roles.curses[i])
  {
    if !CurseWindow(cfg, t) then Next(acc) else CurseSweep(w, t, acc, acc.st.roles.curses)
  }

  /** Blood Rage while the buff is missing and the target is within combat range. */
  function KeepBloodRage(w: World, cfg: Config.Settings, t: Target, acc: Acc): (s: Step)
    ensures s.acc.st == acc.st
    ensures s.Done? ==> s.handled
    ensures Acted(acc, s) <==>
              && acc.st.roles.Slot(BloodRage) != -1
              && CanUseSlot(w.bar, acc.st.roles.Slot(BloodRage))
              && BloodRageUp !in w.me.buffs
              && t.distance < cfg.combatRange as real
    ensures Acted(acc, s) ==> UsedOnce(w, acc, s, acc.st.roles.Slot(BloodRage), true, Unaimed)
    ensures !Acted(acc, s) ==> s == Next(acc)
  {
    var slot := acc.st.roles.Slot(BloodRage);
    if slot == -1 || !CanUseSlot(w.bar, slot) || BloodRageUp in w.me.buffs || !(t.distance < cfg.combatRange as real) then Next(acc)
    else Attempt(acc, slot, true, Unaimed, UseSucceeds(w.bar, slot))
  }

  /** Frenzy at the target while the player is more than two charges short and a monster is within 60. */
  function BuildFrenzy(w: World, acc: Acc): (s: Step)
    ensures s.acc.st == acc.st
    ensures s.Done? ==> s.handled
    ensures Acted(acc, s) <==>
              && acc.st.roles.Slot(Frenzy) != -1
              && CanUseSlot(w.bar, acc.st.roles.Slot(Frenzy))
              && w.me.frenzyCharges < w.me.maxFrenzyCharges - 2
              && w.mobsNearMe60 > 0
    ensures Acted(acc, s) ==> UsedOnce(w, acc, s, acc.st.roles.Slot(Frenzy), false, AtTargetCenter)
    ensures !Acted(acc, s) ==> s == Next(acc)
  {
    var slot := acc.st.roles.Slot(Frenzy);
    if slot == -1 || !CanUseSlot(w.bar, slot) || !(w.me.frenzyCharges < w.me.maxFrenzyCharges - 2) || !(w.mobsNearMe60 > 0) then Next(acc)
    else Attempt(acc, slot, false, AtTargetCenter, UseSucceeds(w.bar, slot))
  }

  /** The two summon rules that are limited per window rather than per use. */
  datatype Summoner = RagingSpirits | Skeletons {
    function Role(): Named {
      if RagingSpirits? then SummonRagingSpirit else SummonSkeletons
    }
    function Clock(): Limiters.Timer {
      if RagingSpirits? then Limiters.RagingSpiritTimer else Limiters.SkeletonsTimer
    }
    function Delay(cfg: Config.Settings): int {
      if RagingSpirits? then cfg.summonRagingSpiritDelayMs else cfg.summonSkeletonDelayMs
    }
    function Quota(cfg: Config.Settings): int {
      if RagingSpirits? then cfg.summonRagingSpiritCountPerDelay else cfg.summonSkeletonCountPerDelay
    }
    function Count(st: State): int {
      if RagingSpirits? then st.ragingSpirits else st.skeletons
    }
    function WithCount(st: State, n: int): State {
      if RagingSpirits? then st.(ragingSpirits := n) else st.(skeletons := n)
    }
  }

  /**
   * Summon Raging Spirit (at the target, not in place) or Summon Skeletons
   * (halfway, in place): every use call counts toward the window's quota,
   * and the call that reaches it zeroes the counter and restarts the stopwatch.
   */
  function Summon(w: World, cfg: Config.Settings, acc: Acc, who: Summoner): (s: Step)
    ensures Frame(acc.st, s.acc.st) && s.acc.st.channel == acc.st.channel && s.acc.st.ignoredItems == acc.st.ignoredItems
    ensures Summoner.RagingSpirits.Count(s.acc.st) == Summoner.RagingSpirits.Count(acc.st) || who.RagingSpirits?
    ensures Summoner.Skeletons.Count(s.acc.st) == Summoner.Skeletons.Count(acc.st) || who.Skeletons?
    ensures Limiters.NotAhead(acc.st.clocks, w.now) ==> Limiters.NotAhead(s.acc.st.clocks, w.now)
    ensures s.Done? ==> s.handled
    ensures Acted(acc, s) <==>
              && acc.st.roles.Slot(who.Role()) != -1
              && Limiters.Ready(acc.st.clocks, who.Clock(), w.now, who.Delay(cfg))
              && CanUseSlot(w.bar, acc.st.roles.Slot(who.Role()))
              && SkillAt(w.bar, acc.st.roles.Slot(who.Role())).value.deployed < SkillAt(w.bar, acc.st.roles.Slot(who.Role())).value.allowed
    ensures Acted(acc, s) ==>
              UsedOnce(w, acc, s, acc.st.roles.Slot(who.Role()), who.Skeletons?,
                       if who.RagingSpirits? then AtTargetCenter else HalfwayToTarget)
    ensures Acted(acc, s) ==>
              var b := Limiters.BurstAttempt(who.Count(acc.st), who.Quota(cfg));
              s.acc.st == who.WithCount(acc.st, b.count).(clocks := if b.restart then Limiters.Restart(acc.st.clocks, who.Clock(), w.now) else acc.st.clocks)
    ensures Acted(acc, s) && who.Count(acc.st) + 1 < who.Quota(cfg) ==>
              who.Count(s.acc.st) == who.Count(acc.st) + 1 && s.acc.st.clocks == acc.st.clocks
    ensures Acted(acc, s) && who.Count(acc.st) + 1 >= who.Quota(cfg) ==>
              who.Count(s.acc.st) == 0 && Limiters.Elapsed(s.acc.st.clocks, who.Clock(), w.now) == 0
    ensures 0 <= who.Count(acc.st) ==> 0 <= who.Count(s.acc.st)
    ensures who.Quota(cfg) >= 1 && who.Count(acc.st) < who.Quota(cfg) ==> who.Count(s.acc.st) < who.Quota(cfg)
    ensures !Acted(acc, s) ==> s == Next(acc)
  {
    var slot := acc.st.roles.Slot(who.Role());
    if slot == -1 || !Limiters.Ready(acc.st.clocks, who.Clock(), w.now, who.Delay(cfg)) then Next(acc)
    else match SkillAt(w.bar, slot)
      case None => Next(acc)
      case Some(skill) =>
        if !(skill.deployed < skill.allowed && skill.canUse) then Next(acc)
        else
          var b := Limiters.BurstAttempt(who.Count(acc.st), who.Quota(cfg));
          var counted := acc.(st := who.WithCount(acc.st, b.count));
          var acc' := if b.restart then Restarted(counted, who.Clock(), w.now) else counted;
          var aim := if who.RagingSpirits? then AtTargetCenter else HalfwayToTarget;
          Attempt(acc', slot, who.Skeletons?, aim, UseSucceeds(w.bar, slot))
  }

  /**
   * Mines next to the target. A successful lay is followed by a detonation
   * unless the mine detonates by itself; the stopwatch restarts either way.
   */
  function LayMine(w: World, cfg: Config.Settings, t: Target, acc: Acc): (s: Step)
    ensures Limiters.NotAhead(acc.st.clocks, w.now) ==> Limiters.NotAhead(s.acc.st.clocks, w.now)
    ensures s.Done? ==> s.handled
    ensures Acted(acc, s) <==>
              && acc.st.roles.mine != -1
              && Limiters.Ready(acc.st.clocks, Limiters.MineTimer, w.now, cfg.mineDelayMs)
              && t.distance < cfg.maxMeleeRange as real
              && CanUseSlot(w.bar, acc.st.roles.mine)
              && SkillAt(w.bar, acc.st.roles.mine).value.deployed < SkillAt(w.bar, acc.st.roles.mine).value.allowed
    ensures Acted(acc, s) ==> s.acc.st == acc.st.(clocks := Limiters.Restart(acc.st.clocks, Limiters.MineTimer, w.now))
    ensures Acted(acc, s) ==> (s.Done? <==> UseSucceeds(w.bar, acc.st.roles.mine))
    ensures Acted(acc, s) ==>
              s.acc.effects
              == acc.effects + [Cast(acc.st.roles.mine, true, Unaimed, UseSucceeds(w.bar, acc.st.roles.mine))]
                 + (if s.Done? && !SkillAt(w.bar, acc.st.roles.mine).value.instantDetonation then [DetonateMines] else [])
    ensures |acc.effects| <= |s.acc.effects|
    ensures s.Done? ==>
              && SkillAt(w.bar, acc.st.roles.mine).Some?
              && (DetonateMines in s.acc.effects[|acc.effects|..] <==> !SkillAt(w.bar, acc.st.roles.mine).value.instantDetonation)
    ensures s.Next? ==> DetonateMines !in s.acc.effects[|acc.effects|..]
    ensures !Acted(acc, s) ==> s == Next(acc)
  {
    var slot := acc.st.roles.mine;
    if slot == -1 || !Limiters.Ready(acc.st.clocks, Limiters.MineTimer, w.now, cfg.mineDelayMs) || !(t.distance < cfg.maxMeleeRange as real) then Next(acc)
    else match SkillAt(w.bar, slot)
      case None => Next(acc)
      case Some(skill) =>
        if !(skill.deployed < skill.allowed && skill.canUse) then Next(acc)
        else
          var ok := UseSucceeds(w.bar, slot);
          var used := Emit(acc, Cast(slot, true, Unaimed, ok));
          var acc' := Restarted(if ok && !skill.instantDetonation then Emit(used, DetonateMines) else used, Limiters.MineTimer, w.now);
          assert acc'.effects[|acc.effects|..] == (if ok && !skill.instantDetonation then [Cast(slot, true, Unaimed, ok), DetonateMines] else [Cast(slot, true, Unaimed, ok)]);
          if ok then Done(true, acc') else Next(acc')
  }

  /** Cold Snap at the target whenever it can be used. */
  function CastColdSnap(w: World, acc: Acc): (s: Step)
    ensures s.acc.st == acc.st
    ensures s.Done? ==> s.handled
    ensures Acted(acc, s) <==> acc.st.roles.Slot(ColdSnap) != -1 && CanUseSlot(w.bar, acc.st.roles.Slot(ColdSnap))
    ensures Acted(acc, s) ==> UsedOnce(w, acc, s, acc.st.roles.Slot(ColdSnap), true, AtTarget)
    ensures !Acted(acc, s) ==> s == Next(acc)
  {
    var slot := acc.st.roles.Slot(ColdSnap);
    if slot == -1 || !CanUseSlot(w.bar, slot) then Next(acc)
    else Attempt(acc, slot, true, AtTarget, UseSucceeds(w.bar, slot))
  }

  predicate VaalCandidate(s: Skill) {
    "vaal" in s.tags && s.canUse
  }

  /**
   * The sweep gets as far as the `j`th skill: it is a vaal candidate and every
   * earlier candidate's use failed.
   */
  predicate VaalReached(rest: seq<Skill>, j: int) {
    && 0 <= j < |rest| && VaalCandidate(rest[j])
    && forall i :: 0 <= i < j && VaalCandidate(rest[i]) ==> rest[i].useFails
  }

  /** A first skill that does not end the sweep moves every reached index of the rest up by one. */
  lemma VaalReachedShifts(rest: seq<Skill>)
    requires |rest| > 0 && (VaalCandidate(rest[0]) ==> rest[0].useFails)
    ensures forall j :: 1 <= j && VaalReached(rest, j) ==> VaalReached(rest[1..], j - 1)
    ensures forall j :: VaalReached(rest[1..], j) ==> VaalReached(rest, j + 1)
  {
  }

  /**
   * Try every usable vaal skill on the bar, in bar order, at the target and
   * not in place; the first successful use ends the tick.
   */
  function VaalSweep(acc: Acc, rest: seq<Skill>): (s: Step)
    decreases |rest|
    ensures s.acc.st == acc.st
    ensures s.Done? ==> s.handled
    ensures s.Done? <==> exists i :: 0 <= i < |rest| && VaalCandidate(rest[i]) && !rest[i].useFails
    ensures |acc.effects| <= |s.acc.effects| && s.acc.effects[..|acc.effects|] == acc.effects
  {
    if |rest| == 0 then Next(acc)
    else
      assert forall i :: 1 <= i < |rest| ==> rest[i] == rest[1..][i - 1];
      if !VaalCandidate(rest[0]) then VaalSweep(acc, rest[1..])
      else match Attempt(acc, rest[0].slot, false, AtTarget, !rest[0].useFails)
        case Done(h, a) => Done(h, a)
        case Next(a) => VaalSweep(a, rest[1..])
  }

  /**
   * The calls of the vaal sweep: every candidate it reaches is used at the
   * target, not in place, with the result that use reports; nothing else is
   * called; and a handled sweep ends with the successful use of the first
   * candidate whose use succeeds.
   */
  lemma {:induction false} VaalSweepCalls(acc: Acc, rest: seq<Skill>)
    ensures var s := VaalSweep(acc, rest);
            && (forall j :: VaalReached(rest, j) ==> Cast(rest[j].slot, false, AtTarget, !rest[j].useFails) in s.acc.effects[|acc.effects|..])
            && (forall e :: e in s.acc.effects[|acc.effects|..] ==> e.Cast? && !e.inPlace && e.aim == AtTarget)
            && (s.Done? ==> exists k :: VaalReached(rest, k) && !rest[k].useFails && Acted(acc, s)
                                        && Last(s.acc.effects) == Cast(rest[k].slot, false, AtTarget, true))
    decreases |rest|
  {
    var s := VaalSweep(acc, rest);
    if |rest| > 0 {
      assert forall i :: 1 <= i < |rest| ==> rest[i] == rest[1..][i - 1];
      if !VaalCandidate(rest[0]) {
        VaalSweepCalls(acc, rest[1..]);
        VaalReachedShifts(rest);
        assert s == VaalSweep(acc, rest[1..]);
        if s.Done? {
          var k :| VaalReached(rest[1..], k) && !rest[1..][k].useFails && Acted(acc, s)
                   && Last(s.acc.effects) == Cast(rest[1..][k].slot, false, AtTarget, true);
          assert VaalReached(rest, k + 1);
        }
      } else if !rest[0].useFails {
        assert VaalReached(rest, 0);
        assert s.acc.effects == acc.effects + [Cast(rest[0].slot, false, AtTarget, true)];
        assert s.acc.effects[|acc.effects|..] == [Cast(rest[0].slot, false, AtTarget, true)];
      } else {
        var a := Emit(acc, Cast(rest[0].slot, false, AtTarget, false));
        assert s == VaalSweep(a, rest[1..]);
        VaalSweepCalls(a, rest[1..]);
        VaalReachedShifts(rest);
        assert s.acc.effects[|acc.effects|..] == [a.effects[|acc.effects|]] + s.acc.effects[|a.effects|..];
        if s.Done? {
          var k :| VaalReached(rest[1..], k) && !rest[1..][k].useFails && Acted(a, s)
                   && Last(s.acc.effects) == Cast(rest[1..][k].slot, false, AtTarget, true);
          assert VaalReached(rest, k + 1);
        }
      }
    }
  }

  /**
   * Vaal skills, at most once a second when enabled. The stopwatch restarts
   * only when the sweep ends without a successful use.
   */
  function CastVaalSkills(w: World, cfg: Config.Settings, acc: Acc): (s: Step)
    ensures Limiters.NotAhead(acc.st.clocks, w.now) ==> Limiters.NotAhead(s.acc.st.clocks, w.now)
    ensures s.Done? ==> s.handled && s.acc.st == acc.st
    ensures s.Done? <==>
              && cfg.autoCastVaalSkills
              && Limiters.Ready(acc.st.clocks, Limiters.VaalTimer, w.now, 1000)
              && exists i :: 0 <= i < |w.bar| && VaalCandidate(w.bar[i]) && !w.bar[i].useFails
    ensures s.Next? && cfg.autoCastVaalSkills && Limiters.Ready(acc.st.clocks, Limiters.VaalTimer, w.now, 1000) ==>
              s.acc.st == acc.st.(clocks := Limiters.Restart(acc.st.clocks, Limiters.VaalTimer, w.now))
    ensures !(cfg.autoCastVaalSkills && Limiters.Ready(acc.st.clocks, Limiters.VaalTimer, w.now, 1000)) ==> s == Next(acc)
  {
    if !cfg.autoCastVaalSkills || !Limiters.Ready(acc.st.clocks, Limiters.VaalTimer, w.now, 1000) then Next(acc)
    else match VaalSweep(acc, w.bar)
      case Done(h, a) => Done(h, a)
      case Next(a) => Next(Restarted(a, Limiters.VaalTimer, w.now))
  }

  /** The last call a step made. */
  function Last(effects: seq<Effect>): Effect
    requires |effects| > 0
  {
    effects[|effects| - 1]
  }

  /**
   * The attack: classify, resolve a slot through the fallback chain, then
   * either walk toward the target, if it lies beyond the range that applies
   * (melee range for melee or a proximity-shielded target), or use the slot
   * at it. This rule always ends the tick as handled.
   */
  function Attack(w: World, cfg: Config.Settings, t: Target, acc: Acc): (s: Step)
    ensures s.Done? && s.handled && s.acc.st == acc.st
    ensures |s.acc.effects| == |acc.effects| + 1 && s.acc.effects[..|acc.effects|] == acc.effects
    ensures t.distance > cfg.maxMeleeRange as real && t.distance > cfg.maxRangeRange as real ==> Last(s.acc.effects) == MoveTowardTarget
    ensures t.proximityShield && t.distance > cfg.maxMeleeRange as real ==> Last(s.acc.effects) == MoveTowardTarget
    ensures t.distance <= cfg.maxMeleeRange as real && t.distance <= cfg.maxRangeRange as real ==> Last(s.acc.effects).Cast?
    ensures Last(s.acc.effects).Cast? ==>
              && Last(s.acc.effects).inPlace == cfg.alwaysAttackInPlace
              && Last(s.acc.effects).aim == AtTargetCenter
              && (Last(s.acc.effects).slot == cfg.fallbackSlot || CanUseSlot(w.bar, Last(s.acc.effects).slot))
    ensures var r := DamageMode.Resolve(DamageMode.Classify(t.mobsNear, t.rarity, t.distance, cfg.maxMeleeRange, w.mobsNearMeMelee), cfg, w.bar);
            var limit := if r.melee || t.proximityShield then cfg.maxMeleeRange else cfg.maxRangeRange;
            && (Last(s.acc.effects) == MoveTowardTarget <==> t.distance > limit as real)
            && (Last(s.acc.effects).Cast? ==> Last(s.acc.effects).slot == r.slot && Last(s.acc.effects).ok == UseSucceeds(w.bar, r.slot))
  {
    var mode := DamageMode.Classify(t.mobsNear, t.rarity, t.distance, cfg.maxMeleeRange, w.mobsNearMeMelee);
    var r := DamageMode.Resolve(mode, cfg, w.bar);
    var limit := if r.melee || t.proximityShield then cfg.maxMeleeRange else cfg.maxRangeRange;
    if t.distance > limit as real then Done(true, Emit(acc, MoveTowardTarget))
    else Done(true, Emit(acc, Cast(r.slot, cfg.alwaysAttackInPlace, AtTargetCenter, UseSucceeds(w.bar, r.slot))))
  }

  // ---------------------------------------------------------- rule order

  /** The rules that run before a target is looked at. */
  datatype OpeningRule =
    | ChannelRule | GuardianRule | WeaponRule | RaiseRule(raise: Named)
    | BuffRule(role: Named, buff: Buff) | EnduranceRule | MoltenShellRule | AuraRule | FlameblastEntryRule

  /** The rules that run against the best target. */
  datatype EngagementRule =
    | ReachRule | TotemRule | TrapRule | CurseRule | BloodRageRule | SustainRule(role: Named, buff: Buff)
    | FrenzyRule | SummonRule(who: Summoner) | MineRule | ColdSnapRule | VaalRule | AttackRule

  const Opening: seq<OpeningRule> := [
    ChannelRule, GuardianRule, WeaponRule, RaiseRule(RaiseSpectre), RaiseRule(RaiseZombie),
    BuffRule(TempestShield, TempestShieldUp), BuffRule(HeraldOfAsh, HeraldOfAshUp),
    BuffRule(HeraldOfIce, HeraldOfIceUp), BuffRule(HeraldOfThunder, HeraldOfThunderUp),
    EnduranceRule, MoltenShellRule, BuffRule(ArcticArmour, ArcticArmourUp), AuraRule, FlameblastEntryRule]

  const Engagement: seq<EngagementRule> := [
    ReachRule, TotemRule, TrapRule, CurseRule, BloodRageRule, SustainRule(RighteousFire, RighteousFireUp),
    FrenzyRule, SummonRule(RagingSpirits), SummonRule(Skeletons), MineRule, ColdSnapRule, VaalRule, AttackRule]

  function Open(r: OpeningRule, w: World, cfg: Config.Settings, acc: Acc): (s: Step)
    ensures Keeps(cfg, w.now, acc.st, s.acc.st)
    ensures s.Done? ==> s.handled
  {
    match r
    case ChannelRule => ResumeFlameblast(w, cfg, acc)
    case GuardianRule => AnimateItem(w, acc, true)
    case WeaponRule => AnimateItem(w, acc, false)
    case RaiseRule(role) => RaiseCorpse(w, acc, role)
    case BuffRule(role, buff) => KeepBuff(w, acc, role, buff)
    case EnduranceRule => RefreshEndurance(w, acc)
    case MoltenShellRule => ShieldWithMoltenShell(w, cfg, acc)
    case AuraRule => MaintainAuras(w, cfg, acc)
    case FlameblastEntryRule => StartFlameblast(w, acc)
  }

  function Engage(r: EngagementRule, w: World, cfg: Config.Settings, t: Target, acc: Acc): (s: Step)
    ensures Keeps(cfg, w.now, acc.st, s.acc.st)
    ensures s.Done? && !s.handled ==> TooFar(cfg, t) && s.acc.effects == acc.effects + [EnableHighlight]
    ensures r.AttackRule? ==> s.Done?
  {
    match r
    case ReachRule => CheckReach(cfg, t, acc)
    case TotemRule => PlaceTotem(w, cfg, acc)
    case TrapRule => PlaceTrap(w, cfg, acc)
    case CurseRule => ApplyCurses(w, cfg, t, acc)
    case BloodRageRule => KeepBloodRage(w, cfg, t, acc)
    case SustainRule(role, buff) => KeepBuff(w, acc, role, buff)
    case FrenzyRule => BuildFrenzy(w, acc)
    case SummonRule(who) => Summon(w, cfg, acc, who)
    case MineRule => LayMine(w, cfg, t, acc)
    case ColdSnapRule => CastColdSnap(w, acc)
    case VaalRule => CastVaalSkills(w, cfg, acc)
    case AttackRule => Attack(w, cfg, t, acc)
  }

  /** The opening rules in order, up to the first that ends the tick. */
  function RunOpening(rules: seq<OpeningRule>, w: World, cfg: Config.Settings, acc: Acc): (s: Step)
    decreases |rules|
    ensures Keeps(cfg, w.now, acc.st, s.acc.st)
    ensures s.Done? ==> s.handled
  {
    if |rules| == 0 then Next(acc)
    else match Open(rules[0], w, cfg, acc)
      case Done(h, a) => Done(h, a)
      case Next(a) => RunOpening(rules[1..], w, cfg, a)
  }

  predicate EndsWithAttack(rules: seq<EngagementRule>) {
    |rules| > 0 && rules[|rules| - 1].AttackRule?
  }

  /**
   * The engagement rules in order, up to the first that ends the tick; a
   * list that ends with the attack always ends the tick, and reports "not
   * handled" only for a target beyond the combat range.
   */
  function RunEngagement(rules: seq<EngagementRule>, w: World, cfg: Config.Settings, t: Target, acc: Acc): (o: Outcome)
    decreases |rules|
    ensures Keeps(cfg, w.now, acc.st, o.state)
    ensures EndsWithAttack(rules) && !o.handled ==>
              TooFar(cfg, t) && |o.effects| > 0 && Last(o.effects) == EnableHighlight
  {
    if |rules| == 0 then Outcome(false, acc.effects, acc.st)
    else match Engage(rules[0], w, cfg, t, acc)
      case Done(h, a) => Outcome(h, a.effects, a.st)
      case Next(a) =>
        assert EndsWithAttack(rules) && |rules| > 1 ==> EndsWithAttack(rules[1..]);
        RunEngagement(rules[1..], w, cfg, t, a)
  }

  /**
   * `Logic("combat")`: the opening rules; then the shrine behaviour; with no
   * target, "not handled" with highlighting re-enabled; otherwise the
   * engagement rules against the best target.
   */
  function Decide(st: State, w: World, cfg: Config.Settings): (o: Outcome)
    ensures Keeps(cfg, w.now, st, o.state)
    ensures !o.handled ==>
              && !w.shrineHandled
              && (w.target.None? || TooFar(cfg, w.target.value))
              && |o.effects| > 0 && Last(o.effects) == EnableHighlight
  {
    match RunOpening(Opening, w, cfg, Acc(st, []))
    case Done(h, a) => Outcome(h, a.effects, a.st)
    case Next(a) =>
      if w.shrineHandled then Outcome(true, a.effects, a.st)
      else match w.target
        case None => Outcome(false, a.effects + [EnableHighlight], a.st)
        case Some(t) =>
          assert EndsWithAttack(Engagement);
          RunEngagement(Engagement, w, cfg, t, a)
  }

  // ------------------------------------------------------------- scenarios

  /** With no skill bound to any role, no opening rule acts. */
  lemma {:induction false} UnboundOpeningIsSilent(rules: seq<OpeningRule>, w: World, cfg: Config.Settings, acc: Acc)
    requires acc.st.roles == Unbound
    ensures RunOpening(rules, w, cfg, acc) == Next(acc)
    decreases |rules|
  {
    if |rules| > 0 {
      assert Open(rules[0], w, cfg, acc) == Next(acc);
      UnboundOpeningIsSilent(rules[1..], w, cfg, acc);
    }
  }

  /**
   * Nothing bound, no target and no shrine: the tick reports "not handled",
   * re-enables highlighting and leaves the state as it was, so it can be
   * repeated indefinitely.
   */
  lemma IdleTickChangesNothing(st: State, w: World, cfg: Config.Settings)
    requires st.roles == Unbound && w.target.None? && !w.shrineHandled
    ensures Decide(st, w, cfg) == Outcome(false, [EnableHighlight], st)
  {
    UnboundOpeningIsSilent(Opening, w, cfg, Acc(st, []));
  }

  /** A target with no path is blacklisted for one minute and the tick is handled. */
  lemma UnreachableTargetIsBlacklisted(st: State, w: World, cfg: Config.Settings)
    requires st.roles == Unbound && !w.shrineHandled
    requires w.target.Some? && w.target.value.path.Unreachable?
    ensures Decide(st, w, cfg) == Outcome(true, [BlacklistTarget(w.target.value.id, 60_000)], st)
  {
    UnboundOpeningIsSilent(Opening, w, cfg, Acc(st, []));
    assert Engagement[0] == ReachRule;
  }

  /** A drop in charges during a channel ends it at once: handled, nothing cast. */
  lemma InterruptedChannelEndsTick(st: State, w: World, cfg: Config.Settings)
    requires st.roles.Slot(Flameblast) != -1 && st.channel.casting
    requires w.me.flameblastCharges < st.channel.last
    ensures Decide(st, w, cfg) == Outcome(true, [], st.(channel := st.channel.(casting := false)))
  {
    assert Opening[0] == ChannelRule;
  }

  /** Charges at the cap release the cast: the current action is finished and the channel ends. */
  lemma FullChannelIsReleased(st: State, w: World, cfg: Config.Settings)
    requires st.roles.Slot(Flameblast) != -1 && st.channel.casting
    requires st.channel.last <= w.me.flameblastCharges && cfg.maxFlameBlastCharges <= w.me.flameblastCharges
    ensures Decide(st, w, cfg) == Outcome(true, [FinishChannel], st.(channel := Channel.Channel(false, w.me.flameblastCharges)))
  {
    assert Opening[0] == ChannelRule;
  }
}

=== FILE: common.dfy ===
/** Vocabulary shared by every part of the combat routine model. */
module Common {

  /** A value that may be absent; stands for the routine's nullable references. */
  datatype Option<+T> = None | Some(value: T)

  /** Monster and item rarity, ordered Normal < Magic < Rare < Unique as the game's enum is. */
  datatype Rarity = Normal | Magic | Rare | Unique {

    function Rank(): nat {
      match this
      case Normal => 0
      case Magic => 1
      case Rare => 2
      case Unique => 3
    }

    /** `this >= other` on the underlying enum. */
    predicate AtLeast(other: Rarity) {
      Rank() >= other.Rank()
    }
  }

  /** Ordinal substring search, as `string.Contains` performs it. */
  predicate Contains(haystack: string, needle: string)
    decreases |haystack|
  {
    && |needle| <= |haystack|
    && (haystack[..|needle|] == needle || (0 < |haystack| && Contains(haystack[1..], needle)))
  }

  /** A needle that occurs at some offset is found. */
  lemma {:induction false} ContainsAt(haystack: string, needle: string, offset: nat)
    requires offset + |needle| <= |haystack|
    requires haystack[offset..offset + |needle|] == needle
    ensures Contains(haystack, needle)
    decreases offset
  {
    if offset > 0 {
      assert haystack[1..][offset - 1..offset - 1 + |needle|] == haystack[offset..offset + |needle|];
      ContainsAt(haystack[1..], needle, offset - 1);
    }
  }

  /** The needle occurs in the haystack starting at `offset`. */
  predicate OccursAt(haystack: string, needle: string, offset: nat) {
    offset + |needle| <= |haystack| && haystack[offset..offset + |needle|] == needle
  }

  /** A needle that is found occurs at some offset. */
  lemma {:induction false} ContainsHasOffset(haystack: string, needle: string)
    requires Contains(haystack, needle)
    ensures exists offset: nat :: OccursAt(haystack, needle, offset)
    decreases |haystack|
  {
    if haystack[..|needle|] != needle {
      ContainsHasOffset(haystack[1..], needle);
      var k: nat :| OccursAt(haystack[1..], needle, k);
      assert haystack[k + 1..k + 1 + |needle|] == haystack[1..][k..k + |needle|];
      assert OccursAt(haystack, needle, k + 1);
    } else {
      assert OccursAt(haystack, needle, 0);
    }
  }
}

=== FILE: config.dfy ===
/**
 * The routine's user settings that the combat logic reads. The settings class
 * itself (OldRoutineSettings.cs) is not part of this model, so no defaults are
 * assumed: every proof holds for every value of every field.
 */
module Config {

  datatype Settings = Settings(
    combatRange: int,
    maxMeleeRange: int,
    maxRangeRange: int,
    singleTargetMeleeSlot: int,
    singleTargetRangedSlot: int,
    aoeMeleeSlot: int,
    aoeRangedSlot: int,
    fallbackSlot: int,
    alwaysAttackInPlace: bool,
    maxFlameBlastCharges: int,
    moltenShellDelayMs: int,
    totemDelayMs: int,
    trapDelayMs: int,
    mineDelayMs: int,
    summonRagingSpiritDelayMs: int,
    summonRagingSpiritCountPerDelay: int,
    summonSkeletonDelayMs: int,
    summonSkeletonCountPerDelay: int,
    autoCastVaalSkills: bool,
    enableAurasFromItems: bool)
}

=== FILE: damage.dfy ===
/**
 * Choosing the damage skill: the area/single and melee/ranged classification
 * of the situation, and the four-deep fallback over the configured slots.
 */
module DamageMode {
  import opened Common
  import opened Registry
  import Config

  /** Area or single target; melee or ranged. */
  datatype Mode = Mode(aoe: bool, melee: bool)

  /** The configured skill slot for a mode. */
  function ConfiguredSlot(cfg: Config.Settings, m: Mode): int {
    match m
    case Mode(true, true) => cfg.aoeMeleeSlot
    case Mode(false, true) => cfg.singleTargetMeleeSlot
    case Mode(true, false) => cfg.aoeRangedSlot
    case Mode(false, false) => cfg.singleTargetRangedSlot
  }

  /** `EnsurceCast`: the slot itself if it holds a usable skill, else -1. */
  function EnsureCast(bar: seq<Skill>, slot: int): (r: int)
    ensures r != -1 <==> slot != -1 && CanUseSlot(bar, slot)
    ensures r != -1 ==> r == slot
  {
    if slot == -1 then slot
    else if SkillAt(bar, slot).None? || !SkillAt(bar, slot).value.canUse then -1
    else slot
  }

  /** The configured slot for the mode can be cast now. */
  predicate Castable(cfg: Config.Settings, bar: seq<Skill>, m: Mode) {
    EnsureCast(bar, ConfiguredSlot(cfg, m)) != -1
  }

  /**
   * The situation: area when more than two monsters are near a target below
   * Rare; within melee range the mode becomes melee and area is decided
   * afresh by whether three or more monsters are near the player.
   */
  function Classify(mobsNearTarget: int, rarity: Rarity, distance: real, maxMeleeRange: int, mobsNearMe: int): (m: Mode)
    ensures m.melee <==> distance < maxMeleeRange as real
    ensures distance < maxMeleeRange as real ==> (m.aoe <==> mobsNearMe >= 3)
    ensures distance >= maxMeleeRange as real ==> (m.aoe <==> mobsNearTarget > 2 && rarity.Rank() < Rare.Rank())
  {
    var aoe := mobsNearTarget > 2 && !rarity.AtLeast(Rare);
    var melee := distance < maxMeleeRange as real;
    var aoe := if melee then mobsNearMe >= 3 else aoe;
    Mode(aoe, melee)
  }

  /** Rare and Unique targets out of melee range are always fought with single-target skills. */
  lemma StrongTargetsAtRangeGetSingleTarget(mobsNearTarget: int, rarity: Rarity, distance: real, maxMeleeRange: int, mobsNearMe: int)
    requires rarity.AtLeast(Rare) && distance >= maxMeleeRange as real
    ensures Classify(mobsNearTarget, rarity, distance, maxMeleeRange, mobsNearMe) == Mode(false, false)
  {
  }

  /** Within melee range only the crowd around the player decides area versus single target. */
  lemma MeleeModeIgnoresTargetCrowd(a: int, b: int, rarity: Rarity, rarity': Rarity, distance: real, maxMeleeRange: int, mobsNearMe: int)
    requires distance < maxMeleeRange as real
    ensures Classify(a, rarity, distance, maxMeleeRange, mobsNearMe) == Classify(b, rarity', distance, maxMeleeRange, mobsNearMe)
    ensures Classify(a, rarity, distance, maxMeleeRange, mobsNearMe).aoe <==> mobsNearMe >= 3
  {
  }

  /** The order in which modes are tried: the mode, its area/single opposite, then both in the other range band. */
  function FallbackChain(m: Mode): seq<Mode> {
    [m, Mode(!m.aoe, m.melee), Mode(m.aoe, !m.melee), Mode(!m.aoe, !m.melee)]
  }

  /** The shared "first applicable" reducer: the index of the first castable mode. */
  function FirstCastable(cfg: Config.Settings, bar: seq<Skill>, chain: seq<Mode>): (r: Option<nat>)
    ensures r.Some? ==> r.value < |chain| && Castable(cfg, bar, chain[r.value])
    ensures r.Some? ==> forall j :: 0 <= j < r.value ==> !Castable(cfg, bar, chain[j])
    ensures r.None? <==> forall j :: 0 <= j < |chain| ==> !Castable(cfg, bar, chain[j])
  {
    if |chain| == 0 then None
    else if Castable(cfg, bar, chain[0]) then Some(0)
    else
      var r := FirstCastable(cfg, bar, chain[1..]);
      assert forall i :: 1 <= i < |chain| ==> chain[i] == chain[1..][i - 1];
      if r.Some? then Some(r.value + 1) else None
  }

  /** The slot to attack with and the range band it commits to. */
  datatype Resolution = Resolution(slot: int, melee: bool)

  /**
   * Resolution by the reducer: the first castable mode of the chain gives the
   * slot and the band; when none is castable, the fallback slot in melee.
   */
  function Resolve(m: Mode, cfg: Config.Settings, bar: seq<Skill>): (r: Resolution)
    ensures Castable(cfg, bar, m) ==> r == Resolution(ConfiguredSlot(cfg, m), m.melee)
    ensures (forall k :: 0 <= k < 4 ==> !Castable(cfg, bar, FallbackChain(m)[k])) ==> r == Resolution(cfg.fallbackSlot, true)
    ensures (exists k :: 0 <= k < 4 && Castable(cfg, bar, FallbackChain(m)[k])) ==> r.slot != -1 && CanUseSlot(bar, r.slot)
    ensures (exists k :: 0 <= k < 4 && Castable(cfg, bar, FallbackChain(m)[k])) && r.melee != m.melee ==>
              !Castable(cfg, bar, m) && !Castable(cfg, bar, Mode(!m.aoe, m.melee))
  {
    var chain := FallbackChain(m);
    match FirstCastable(cfg, bar, chain)
    case Some(k) =>
      assert k >= 2 ==> !Castable(cfg, bar, chain[0]) && !Castable(cfg, bar, chain[1]);
      Resolution(ConfiguredSlot(cfg, chain[k]), chain[k].melee)
    case None => Resolution(cfg.fallbackSlot, true)
  }

  /** The source's cascade of nested ifs, branch for branch, with the fallback applied after it. */
  function ResolveAsWritten(aoe: bool, melee: bool, cfg: Config.Settings, bar: seq<Skill>): Resolution {
    var r :=
      if aoe then
        if melee then
          var slot := EnsureCast(bar, cfg.aoeMeleeSlot);
          if slot != -1 then Resolution(slot, true) else
          var slot := EnsureCast(bar, cfg.singleTargetMeleeSlot);
          if slot != -1 then Resolution(slot, true) else
          var slot := EnsureCast(bar, cfg.aoeRangedSlot);
          if slot != -1 then Resolution(slot, false) else
          Resolution(EnsureCast(bar, cfg.singleTargetRangedSlot), false)
        else
          var slot := EnsureCast(bar, cfg.aoeRangedSlot);
          if slot != -1 then Resolution(slot, false) else
          var slot := EnsureCast(bar, cfg.singleTargetRangedSlot);
          if slot != -1 then Resolution(slot, false) else
          var slot := EnsureCast(bar, cfg.aoeMeleeSlot);
          if slot != -1 then Resolution(slot, true) else
          Resolution(EnsureCast(bar, cfg.singleTargetMeleeSlot), true)
      else
        if melee then
          var slot := EnsureCast(bar, cfg.singleTargetMeleeSlot);
          if slot != -1 then Resolution(slot, true) else
          var slot := EnsureCast(bar, cfg.aoeMeleeSlot);
          if slot != -1 then Resolution(slot, true) else
          var slot := EnsureCast(bar, cfg.singleTargetRangedSlot);
          if slot != -1 then Resolution(slot, false) else
          Resolution(EnsureCast(bar, cfg.aoeRangedSlot), false)
        else
          var slot := EnsureCast(bar, cfg.singleTargetRangedSlot);
          if slot != -1 then Resolution(slot, false) else
          var slot := EnsureCast(bar, cfg.aoeRangedSlot);
          if slot != -1 then Resolution(slot, false) else
          var slot := EnsureCast(bar, cfg.singleTargetMeleeSlot);
          if slot != -1 then Resolution(slot, true) else
          Resolution(EnsureCast(bar, cfg.aoeMeleeSlot), true);
    if r.slot == -1 then Resolution(cfg.fallbackSlot, true) else r
  }

  /** The reducer over the fallback chain agrees with the source's cascade on every input. */
  lemma ResolveMatchesCascade(m: Mode, cfg: Config.Settings, bar: seq<Skill>)
    ensures Resolve(m, cfg, bar) == ResolveAsWritten(m.aoe, m.melee, cfg, bar)
  {
    var chain := FallbackChain(m);
    match FirstCastable(cfg, bar, chain)
    case None =>
      assert !Castable(cfg, bar, chain[0]) && !Castable(cfg, bar, chain[1]);
      assert !Castable(cfg, bar, chain[2]) && !Castable(cfg, bar, chain[3]);
      assert forall a: bool, b: bool :: !Castable(cfg, bar, Mode(a, b));
      assert EnsureCast(bar, cfg.aoeMeleeSlot) == -1 && EnsureCast(bar, cfg.singleTargetMeleeSlot) == -1;
      assert EnsureCast(bar, cfg.aoeRangedSlot) == -1 && EnsureCast(bar, cfg.singleTargetRangedSlot) == -1;
    case Some(k) =>
      assert Castable(cfg, bar, chain[k]);
      assert forall j :: 0 <= j < k ==> !Castable(cfg, bar, chain[j]);
      if k == 1 {
        assert !Castable(cfg, bar, chain[0]);
      } else if k == 2 {
        assert !Castable(cfg, bar, chain[0]) && !Castable(cfg, bar, chain[1]);
      } else if k == 3 {
        assert !Castable(cfg, bar, chain[0]) && !Castable(cfg, bar, chain[1]) && !Castable(cfg, bar, chain[2]);
      }
  }

  /**
   * A Normal target 10 away, melee range 12, two monsters near the player, the
   * area-melee skill unusable and the single-target melee skill usable: the
   * single-target melee slot is chosen, in melee.
   */
  lemma SingleMeleeScenario(cfg: Config.Settings, bar: seq<Skill>, mobsNearTarget: int)
    requires cfg.maxMeleeRange == 12
    requires !Castable(cfg, bar, Mode(true, true)) && Castable(cfg, bar, Mode(false, true))
    ensures Classify(mobsNearTarget, Normal, 10.0, cfg.maxMeleeRange, 2) == Mode(false, true)
    ensures Resolve(Mode(false, true), cfg, bar) == Resolution(cfg.singleTargetMeleeSlot, true)
  {
  }
}

=== FILE: limiters.dfy ===
/**
 * The routine's rate limiters: one stopwatch per repeating rule, a strict or
 * inclusive delay gate on it, and the per-window counter of the two summon rules.
 */
module Limiters {

  datatype Timer =
    | TrapTimer | TotemTimer | MineTimer | AnimateWeaponTimer | AnimateGuardianTimer
    | MoltenShellTimer | VaalTimer | SkeletonsTimer | RagingSpiritTimer

  /** Stopwatch start times (ms); a stopwatch never restarted started with the routine, at 0. */
  type Clocks = map<Timer, int>

  function Started(c: Clocks, t: Timer): int {
    if t in c then c[t] else 0
  }

  function Elapsed(c: Clocks, t: Timer, now: int): int {
    now - Started(c, t)
  }

  /** `Stopwatch.Restart()`: elapsed time drops to zero; every other stopwatch runs on. */
  function Restart(c: Clocks, t: Timer, now: int): (r: Clocks)
    ensures Elapsed(r, t, now) == 0
    ensures forall u :: u != t ==> Started(r, u) == Started(c, u)
  {
    c[t := now]
  }

  /** The gate most rules use: strictly more than `delayMs` since the last restart. */
  predicate Ready(c: Clocks, t: Timer, now: int, delayMs: int) {
    Elapsed(c, t, now) > delayMs
  }

  /** The molten shell gate: at least `delayMs`. */
  predicate ReadyAtLeast(c: Clocks, t: Timer, now: int, delayMs: int) {
    Elapsed(c, t, now) >= delayMs
  }

  /** No stopwatch started in the future. */
  predicate NotAhead(c: Clocks, now: int) {
    forall t :: t in c ==> c[t] <= now
  }

  /** Right after a restart a strict gate is closed for any non-negative delay, and it opens again exactly once the delay has passed. */
  lemma RestartClosesGate(c: Clocks, t: Timer, now: int, later: int, delayMs: int)
    requires delayMs >= 0
    ensures !Ready(Restart(c, t, now), t, now, delayMs)
    ensures Ready(Restart(c, t, now), t, later, delayMs) <==> later - now > delayMs
  {
  }

  /** A restart at `now` keeps every start time at or before `now`. */
  lemma RestartNotAhead(c: Clocks, t: Timer, now: int)
    requires NotAhead(c, now)
    ensures NotAhead(Restart(c, t, now), now)
  {
  }

  // ----------------------------------------------------------- burst window

  /** The summon counter after an attempt, and whether the attempt restarted the stopwatch. */
  datatype BurstStep = BurstStep(count: int, restart: bool)

  /**
   * One attempted summon: the counter is incremented, and once it reaches the
   * per-window quota it is zeroed and the stopwatch restarted, whether or not
   * the summon succeeded.
   */
  function BurstAttempt(count: int, quota: int): (b: BurstStep)
    ensures b.restart <==> count + 1 >= quota
    ensures b.count == if count + 1 >= quota then 0 else count + 1
    ensures quota >= 1 ==> b.count < quota
    ensures count >= 0 ==> b.count >= 0
  {
    var n := count + 1;
    if n >= quota then BurstStep(0, true) else BurstStep(n, false)
  }

  /** `k` consecutive attempts from counter `count`: the final counter, and whether any attempt restarted. */
  function Attempts(count: int, quota: int, k: nat): BurstStep {
    if k == 0 then BurstStep(count, false)
    else
      var prev := Attempts(count, quota, k - 1);
      var b := BurstAttempt(prev.count, quota);
      BurstStep(b.count, prev.restart || b.restart)
  }

  /**
   * From a fresh window the first quota-1 attempts leave the stopwatch running
   * and count up; the quota-th attempt restarts it and zeroes the counter.
   */
  lemma {:induction false} WindowAdmitsQuota(quota: int, k: nat)
    requires quota >= 1 && k <= quota
    ensures k < quota ==> Attempts(0, quota, k) == BurstStep(k, false)
    ensures k == quota ==> Attempts(0, quota, k) == BurstStep(0, true)
  {
    if k > 0 {
      WindowAdmitsQuota(quota, k - 1);
    }
  }
}

=== FILE: registry.dfy ===
/**
 * The skill bar as the routine sees it, and the role registry rebuilt from it
 * whenever the dirty flag is set (the `_needsUpdate` block of Tick).
 */
module Registry {
  import opened Common

  /**
   * One skill of the skill bar. The first group of fields is what the registry
   * scan reads; the rest is the per-tick state the combat rules read: the
   * skill's `CanUse()` answer, whether a use call on it reports an error, and
   * the stat values the rules compare against.
   */
  datatype Skill = Skill(
    id: int,
    name: string,
    tags: set<string>,
    slot: int,
    isCastable: bool,
    isTotem: bool,
    isTrap: bool,
    isMine: bool,
    canUse: bool,
    useFails: bool,
    setSlotFails: bool,
    deployed: int,
    allowed: int,
    maxItemLevel: int,
    instantDetonation: bool)

  /** The named roles, each bound to the skill of that exact name. */
  datatype Named =
    | Frenzy | ColdSnap | HeraldOfAsh | HeraldOfIce | HeraldOfThunder
    | SummonSkeletons | SummonRagingSpirit | RighteousFire | BloodRage
    | TempestShield | ArcticArmour | MoltenShell | EnduringCry
    | RaiseZombie | RaiseSpectre | Flameblast | AnimateGuardian | AnimateWeapon

  function SkillName(n: Named): string {
    match n
    case Frenzy => "Frenzy"
    case ColdSnap => "Cold Snap"
    case HeraldOfAsh => "Herald of Ash"
    case HeraldOfIce => "Herald of Ice"
    case HeraldOfThunder => "Herald of Thunder"
    case SummonSkeletons => "Summon Skeletons"
    case SummonRagingSpirit => "Summon Raging Spirit"
    case RighteousFire => "Righteous Fire"
    case BloodRage => "Blood Rage"
    case TempestShield => "Tempest Shield"
    case ArcticArmour => "Arctic Armour"
    case MoltenShell => "Molten Shell"
    case EnduringCry => "Enduring Cry"
    case RaiseZombie => "Raise Zombie"
    case RaiseSpectre => "Raise Spectre"
    case Flameblast => "Flameblast"
    case AnimateGuardian => "Animate Guardian"
    case AnimateWeapon => "Animate Weapon"
  }

  const AllNamed: set<Named> := {
    Frenzy, ColdSnap, HeraldOfAsh, HeraldOfIce, HeraldOfThunder,
    SummonSkeletons, SummonRagingSpirit, RighteousFire, BloodRage,
    TempestShield, ArcticArmour, MoltenShell, EnduringCry,
    RaiseZombie, RaiseSpectre, Flameblast, AnimateGuardian, AnimateWeapon }

  /** The single-slot roles filled by a first-match scan rather than by name. */
  datatype Placement = AuraRole | TotemRole | TrapRole | MineRole

  /**
   * Role slots: -1 means unbound. A named role missing from `named` is
   * unbound as well, so the empty map is a valid registry.
   */
  datatype Roles = Roles(named: map<Named, int>, aura: int, totem: int, trap: int, mine: int, curses: seq<int>) {

    function Slot(n: Named): int {
      if n in named then named[n] else -1
    }

    function PlacementSlot(p: Placement): int {
      match p
      case AuraRole => aura
      case TotemRole => totem
      case TrapRole => trap
      case MineRole => mine
    }
  }

  /** Every role unbound: the registry's state before the first refresh. */
  const Unbound := Roles(map[], -1, -1, -1, -1, [])

  // ------------------------------------------------------- bar lookups

  /** `SkillBarPanel.Slot(n)`: the first skill occupying slot n; nothing occupies slot -1. */
  function SkillAt(bar: seq<Skill>, slot: int): (r: Option<Skill>)
    ensures r.Some? ==> r.value in bar && r.value.slot == slot && slot != -1
    ensures r.None? ==> slot == -1 || forall i :: 0 <= i < |bar| ==> bar[i].slot != slot
  {
    if slot == -1 || |bar| == 0 then None
    else if bar[0].slot == slot then Some(bar[0])
    else
      var r := SkillAt(bar[1..], slot);
      assert forall i :: 1 <= i < |bar| ==> bar[i] == bar[1..][i - 1];
      r
  }

  /** The skill in the slot exists and reports `CanUse()`. */
  predicate CanUseSlot(bar: seq<Skill>, slot: int) {
    SkillAt(bar, slot).Some? && SkillAt(bar, slot).value.canUse
  }

  /** A use call on the slot reports no error. */
  predicate UseSucceeds(bar: seq<Skill>, slot: int) {
    SkillAt(bar, slot).Some? && !SkillAt(bar, slot).value.useFails
  }

  // ------------------------------------------------------ classification

  /** `IsCastableHelper`: castable, and not a totem, trap or mine skill. */
  predicate CastableHelper(s: Skill) {
    s.isCastable && !s.isTotem && !s.isTrap && !s.isMine
  }

  /** Auras granted by items: recognised by name only when the setting allows it. */
  const ItemAuraNames: set<string> := {
    "Anger", "Clarity", "Determination", "Discipline", "Grace", "Haste", "Hatred",
    "Purity of Elements", "Purity of Fire", "Purity of Ice", "Purity of Lightning",
    "Vitality", "Wrath" }

  predicate IsAuraName(name: string, enableItemAuras: bool) {
    enableItemAuras && name in ItemAuraNames
  }

  /** Aura-tagged and not a vaal skill, or an allow-listed item aura name. */
  predicate IsAuraSkill(s: Skill, enableItemAuras: bool) {
    ("aura" in s.tags && "vaal" !in s.tags) || IsAuraName(s.name, enableItemAuras)
  }

  predicate Qualifies(p: Placement, s: Skill, enableItemAuras: bool) {
    match p
    case AuraRole => IsAuraSkill(s, enableItemAuras)
    case TotemRole => s.isTotem
    case TrapRole => s.isTrap
    case MineRole => s.isMine
  }

  /** A curse the registry records: curse-tagged, on the bar, castable. */
  predicate IsBoundCurse(s: Skill) {
    "curse" in s.tags && s.slot != -1 && s.isCastable
  }

  // ------------------------------------------------- reference definitions

  /** `x` is the slot of some bound curse on the bar. */
  predicate IsBoundCurseSlot(skills: seq<Skill>, x: int) {
    exists i :: 0 <= i < |skills| && IsBoundCurse(skills[i]) && skills[i].slot == x
  }

  /** The slots of the recorded curses, in skill-bar order. */
  function CurseSlots(skills: seq<Skill>): seq<int> {
    if |skills| == 0 then []
    else (if IsBoundCurse(skills[0]) then [skills[0].slot] else []) + CurseSlots(skills[1..])
  }

  /** The positions of the bound curses on the skill bar, in bar order. */
  function BoundCurseIndices(skills: seq<Skill>): (idx: seq<nat>)
    ensures forall k :: 0 <= k < |idx| ==> idx[k] < |skills|
    decreases |skills|
  {
    if |skills| == 0 then []
    else BoundCurseIndices(skills[..|skills| - 1]) + (if IsBoundCurse(skills[|skills| - 1]) then [|skills| - 1] else [])
  }

  /**
   * The bound-curse positions are what their name says: each names a bound
   * curse, they strictly increase, and no bound curse is missing.
   */
  lemma {:induction false} BoundCurseIndicesSpec(skills: seq<Skill>)
    ensures var idx := BoundCurseIndices(skills);
            && (forall k :: 0 <= k < |idx| ==> idx[k] < |skills| && IsBoundCurse(skills[idx[k]]))
            && (forall k, l :: 0 <= k < l < |idx| ==> idx[k] < idx[l])
            && (forall i :: 0 <= i < |skills| && IsBoundCurse(skills[i]) ==> i in idx)
  {
    BoundCurseIndicesNameCurses(skills);
    BoundCurseIndicesIncrease(skills);
    BoundCurseIndicesComplete(skills);
  }

  /** Each recorded position holds a bound curse. */
  lemma {:induction false} BoundCurseIndicesNameCurses(skills: seq<Skill>)
    ensures forall k :: 0 <= k < |BoundCurseIndices(skills)| ==> IsBoundCurse(skills[BoundCurseIndices(skills)[k]])
    decreases |skills|
  {
    if |skills| > 0 {
      var init := skills[..|skills| - 1];
      BoundCurseIndicesNameCurses(init);
      var before := BoundCurseIndices(init);
      var idx := BoundCurseIndices(skills);
      assert idx == before + (if IsBoundCurse(skills[|init|]) then [|init|] else []);
      forall k | 0 <= k < |idx| ensures IsBoundCurse(skills[idx[k]]) {
        if k < |before| {
          assert idx[k] == before[k] && skills[before[k]] == init[before[k]];
        }
      }
    }
  }

  /** The recorded positions strictly increase. */
  lemma {:induction false} BoundCurseIndicesIncrease(skills: seq<Skill>)
    ensures forall k, l :: 0 <= k < l < |BoundCurseIndices(skills)| ==> BoundCurseIndices(skills)[k] < BoundCurseIndices(skills)[l]
    decreases |skills|
  {
    if |skills| > 0 {
      var init := skills[..|skills| - 1];
      BoundCurseIndicesIncrease(init);
      var before := BoundCurseIndices(init);
      var idx := BoundCurseIndices(skills);
      assert idx == before + (if IsBoundCurse(skills[|init|]) then [|init|] else []);
      forall k, l | 0 <= k < l < |idx| ensures idx[k] < idx[l] {
        assert idx[k] == before[k] < |init|;
        if l < |before| {
          assert idx[l] == before[l];
          assert before[k] < before[l];
        } else {
          assert idx[l] == |init|;
        }
      }
    }
  }

  /** Every bound curse's position is recorded. */
  lemma {:induction false} BoundCurseIndicesComplete(skills: seq<Skill>)
    ensures forall i :: 0 <= i < |skills| && IsBoundCurse(skills[i]) ==> i in BoundCurseIndices(skills)
    decreases |skills|
  {
    if |skills| > 0 {
      var init := skills[..|skills| - 1];
      BoundCurseIndicesComplete(init);
      forall i | 0 <= i < |init| && IsBoundCurse(skills[i]) ensures i in BoundCurseIndices(init) {
        assert init[i] == skills[i];
      }
    }
  }

  /** At most one curse slot is recorded per skill. */
  lemma {:induction false} CurseSlotsNoLonger(skills: seq<Skill>)
    ensures |CurseSlots(skills)| <= |skills|
    decreases |skills|
  {
    if |skills| > 0 {
      CurseSlotsNoLonger(skills[1..]);
    }
  }

  /**
   * The recorded curse slots follow the bar: the `k`th entry is the slot of
   * the `k`th bound curse in bar order, so order and repeats are kept.
   */
  lemma {:induction false} CurseSlotsInOrder(skills: seq<Skill>)
    ensures |CurseSlots(skills)| == |BoundCurseIndices(skills)|
    ensures forall k :: 0 <= k < |CurseSlots(skills)| ==> CurseSlots(skills)[k] == skills[BoundCurseIndices(skills)[k]].slot
    decreases |skills|
  {
    if |skills| > 0 {
      var init := skills[..|skills| - 1];
      var last := skills[|skills| - 1];
      assert skills == init + [last];
      CurseSlotsInOrder(init);
      CurseSlotsAppend(init, last);
      var before := BoundCurseIndices(init);
      assert forall k :: 0 <= k < |before| ==> skills[before[k]] == init[before[k]];
    }
  }

  /**
   * The recorded curse slots are exactly the slots of the bound curses: none
   * is -1, every bound curse's slot is there, and nothing else is.
   */
  lemma {:induction false} CurseSlotsSpec(skills: seq<Skill>)
    ensures |CurseSlots(skills)| <= |skills|
    ensures forall k :: 0 <= k < |CurseSlots(skills)| ==> CurseSlots(skills)[k] != -1
    ensures forall i :: 0 <= i < |skills| && IsBoundCurse(skills[i]) ==> skills[i].slot in CurseSlots(skills)
    ensures forall k :: 0 <= k < |CurseSlots(skills)| ==> IsBoundCurseSlot(skills, CurseSlots(skills)[k])
    ensures RecordsBoundCurses(skills, CurseSlots(skills))
    decreases |skills|
  {
    CurseSlotsNoLonger(skills);
    CurseSlotsInOrder(skills);
    CurseSlotsCoverBound(skills);
    CurseSlotsOnlyBound(skills);
  }

  /** Every bound curse's slot is recorded. */
  lemma {:induction false} CurseSlotsCoverBound(skills: seq<Skill>)
    ensures forall i :: 0 <= i < |skills| && IsBoundCurse(skills[i]) ==> skills[i].slot in CurseSlots(skills)
  {
    CurseSlotsInOrder(skills);
    BoundCurseIndicesSpec(skills);
    var r := CurseSlots(skills);
    var idx := BoundCurseIndices(skills);
    forall i | 0 <= i < |skills| && IsBoundCurse(skills[i]) ensures skills[i].slot in r {
      var k :| 0 <= k < |idx| && idx[k] == i;
      assert r[k] == skills[i].slot;
    }
  }

  /** Every recorded slot is a bound curse's, and so never -1. */
  lemma {:induction false} CurseSlotsOnlyBound(skills: seq<Skill>)
    ensures forall k :: 0 <= k < |CurseSlots(skills)| ==> IsBoundCurseSlot(skills, CurseSlots(skills)[k])
    ensures forall k :: 0 <= k < |CurseSlots(skills)| ==> CurseSlots(skills)[k] != -1
  {
    CurseSlotsInOrder(skills);
    BoundCurseIndicesSpec(skills);
    var r := CurseSlots(skills);
    var idx := BoundCurseIndices(skills);
    forall k | 0 <= k < |r|
      ensures IsBoundCurseSlot(skills, CurseSlots(skills)[k])
    {
      var i := idx[k];
      assert 0 <= i < |skills| && IsBoundCurse(skills[i]) && skills[i].slot == CurseSlots(skills)[k];
    }
  }

  /**
   * The slot a first-match role ends with: that of the first qualifying skill
   * whose slot is not -1. A qualifying skill off the bar leaves the role open
   * for a later one.
   */
  function FirstBound(skills: seq<Skill>, p: Placement, enableItemAuras: bool): int {
    if |skills| == 0 then -1
    else if Qualifies(p, skills[0], enableItemAuras) && skills[0].slot != -1 then skills[0].slot
    else FirstBound(skills[1..], p, enableItemAuras)
  }

  /**
   * The role is open exactly when every qualifying skill is off the bar, and
   * otherwise holds the slot of a qualifying skill that every earlier
   * qualifying skill gave way to.
   */
  lemma {:induction false} FirstBoundSpec(skills: seq<Skill>, p: Placement, enableItemAuras: bool)
    ensures var slot := FirstBound(skills, p, enableItemAuras);
            slot == -1 <==> forall i :: 0 <= i < |skills| && Qualifies(p, skills[i], enableItemAuras) ==> skills[i].slot == -1
    ensures var slot := FirstBound(skills, p, enableItemAuras);
            slot != -1 ==> exists i :: 0 <= i < |skills| && Qualifies(p, skills[i], enableItemAuras) && skills[i].slot == slot
                                       && forall j :: 0 <= j < i && Qualifies(p, skills[j], enableItemAuras) ==> skills[j].slot == -1
    decreases |skills|
  {
    if |skills| > 0 && !(Qualifies(p, skills[0], enableItemAuras) && skills[0].slot != -1) {
      FirstBoundSpec(skills[1..], p, enableItemAuras);
      var r := FirstBound(skills, p, enableItemAuras);
      assert r == FirstBound(skills[1..], p, enableItemAuras);
      assert forall i :: 1 <= i < |skills| ==> skills[i] == skills[1..][i - 1];
      if r != -1 {
        var i :| 0 <= i < |skills[1..]| && Qualifies(p, skills[1..][i], enableItemAuras) && skills[1..][i].slot == r
                 && forall j :: 0 <= j < i && Qualifies(p, skills[1..][j], enableItemAuras) ==> skills[1..][j].slot == -1;
        assert Qualifies(p, skills[i + 1], enableItemAuras) && skills[i + 1].slot == r;
      }
    }
  }

  /** Skill `i` is the first on the bar with this name. */
  predicate FirstWithName(skills: seq<Skill>, name: string, i: int) {
    0 <= i < |skills| && skills[i].name == name && forall j :: 0 <= j < i ==> skills[j].name != name
  }

  /**
   * `slot` is what a first-match scan for `p` leaves: -1 exactly when every
   * qualifying skill is off the bar, and otherwise the slot of a qualifying
   * skill that every earlier qualifying skill gave way to.
   */
  predicate FirstMatch(skills: seq<Skill>, p: Placement, enableItemAuras: bool, slot: int) {
    && (slot == -1 <==> forall i :: 0 <= i < |skills| && Qualifies(p, skills[i], enableItemAuras) ==> skills[i].slot == -1)
    && (slot != -1 ==> exists i :: 0 <= i < |skills| && Qualifies(p, skills[i], enableItemAuras) && skills[i].slot == slot
                                   && forall j :: 0 <= j < i && Qualifies(p, skills[j], enableItemAuras) ==> skills[j].slot == -1)
  }

  /**
   * `curses` records exactly the bound curses: no entry is -1, every bound
   * curse's slot is there, every entry is a bound curse's slot, and the
   * entries follow the bar, one per bound curse.
   */
  predicate RecordsBoundCurses(skills: seq<Skill>, curses: seq<int>) {
    && |curses| <= |skills|
    && |curses| == |BoundCurseIndices(skills)|
    && (forall k :: 0 <= k < |curses| ==> curses[k] == skills[BoundCurseIndices(skills)[k]].slot)
    && (forall k :: 0 <= k < |curses| ==> curses[k] != -1)
    && (forall i :: 0 <= i < |skills| && IsBoundCurse(skills[i]) ==> skills[i].slot in curses)
    && (forall k :: 0 <= k < |curses| ==> IsBoundCurseSlot(skills, curses[k]))
  }

  /** The index `FirstOrDefault(s => s.Name == name)` finds. */
  function FirstNamed(skills: seq<Skill>, name: string): (r: Option<nat>)
    ensures r.Some? ==> r.value < |skills| && skills[r.value].name == name
    ensures r.Some? ==> forall j :: 0 <= j < r.value ==> skills[j].name != name
    ensures r.None? <==> forall j :: 0 <= j < |skills| ==> skills[j].name != name
  {
    if |skills| == 0 then None
    else if skills[0].name == name then Some(0)
    else
      var r := FirstNamed(skills[1..], name);
      assert forall i :: 1 <= i < |skills| ==> skills[i] == skills[1..][i - 1];
      if r.Some? then Some(r.value + 1) else None
  }

  /** `FirstNamed` finds exactly the first skill with the name. */
  lemma FirstNamedIsFirst(skills: seq<Skill>, name: string)
    ensures forall i :: FirstWithName(skills, name, i) <==> FirstNamed(skills, name) == Some(i)
  {
  }

  /**
   * A named role's slot: that of the first skill with the role's name, if that
   * skill passes `IsCastableHelper`; -1 otherwise (a later skill of the same
   * name is never considered).
   */
  function NamedSlot(skills: seq<Skill>, n: Named): (slot: int)
    ensures slot != -1 ==> exists i :: 0 <= i < |skills| && skills[i].name == SkillName(n)
                                        && CastableHelper(skills[i]) && skills[i].slot == slot
    ensures (forall i :: 0 <= i < |skills| ==> skills[i].name != SkillName(n)) ==> slot == -1
    ensures forall i :: FirstWithName(skills, SkillName(n), i) ==>
                          slot == if CastableHelper(skills[i]) then skills[i].slot else -1
  {
    FirstNamedIsFirst(skills, SkillName(n));
    match FirstNamed(skills, SkillName(n))
    case None => -1
    case Some(i) => if CastableHelper(skills[i]) then skills[i].slot else -1
  }

  /** The registry a refresh produces from the skill bar. */
  function Refresh(skills: seq<Skill>, enableItemAuras: bool): (r: Roles)
    ensures forall n :: r.Slot(n) == NamedSlot(skills, n)
    ensures forall p :: FirstMatch(skills, p, enableItemAuras, r.PlacementSlot(p))
    ensures RecordsBoundCurses(skills, r.curses)
  {
    AllNamedIsEveryRole();
    CurseSlotsSpec(skills);
    PlacementsSpec(skills, enableItemAuras);
    var r := Roles(
      map n | n in AllNamed :: NamedSlot(skills, n),
      FirstBound(skills, AuraRole, enableItemAuras),
      FirstBound(skills, TotemRole, enableItemAuras),
      FirstBound(skills, TrapRole, enableItemAuras),
      FirstBound(skills, MineRole, enableItemAuras),
      CurseSlots(skills));
    assert forall p :: r.PlacementSlot(p) == FirstBound(skills, p, enableItemAuras);
    r
  }

  lemma PlacementsSpec(skills: seq<Skill>, enableItemAuras: bool)
    ensures forall p :: FirstMatch(skills, p, enableItemAuras, FirstBound(skills, p, enableItemAuras))
  {
    forall p ensures FirstMatch(skills, p, enableItemAuras, FirstBound(skills, p, enableItemAuras)) {
      FirstBoundSpec(skills, p, enableItemAuras);
    }
  }

  lemma AllNamedIsEveryRole()
    ensures forall n: Named :: n in AllNamed
  {
    forall n: Named ensures n in AllNamed {
      match n
      case Frenzy =>
      case ColdSnap =>
      case HeraldOfAsh =>
      case HeraldOfIce =>
      case HeraldOfThunder =>
      case SummonSkeletons =>
      case SummonRagingSpirit =>
      case RighteousFire =>
      case BloodRage =>
      case TempestShield =>
      case ArcticArmour =>
      case MoltenShell =>
      case EnduringCry =>
      case RaiseZombie =>
      case RaiseSpectre =>
      case Flameblast =>
      case AnimateGuardian =>
      case AnimateWeapon =>
    }
  }

  // ------------------------------------------------------- the source's scan

  lemma {:induction false} CurseSlotsAppend(skills: seq<Skill>, s: Skill)
    ensures CurseSlots(skills + [s]) == CurseSlots(skills) + (if IsBoundCurse(s) then [s.slot] else [])
    decreases |skills|
  {
    if |skills| > 0 {
      assert (skills + [s])[1..] == skills[1..] + [s];
      CurseSlotsAppend(skills[1..], s);
    }
  }

  lemma {:induction false} FirstBoundAppend(skills: seq<Skill>, s: Skill, p: Placement, enableItemAuras: bool)
    ensures FirstBound(skills + [s], p, enableItemAuras)
         == if FirstBound(skills, p, enableItemAuras) != -1 then FirstBound(skills, p, enableItemAuras)
            else if Qualifies(p, s, enableItemAuras) then s.slot
            else -1
    decreases |skills|
  {
    if |skills| > 0 {
      assert (skills + [s])[1..] == skills[1..] + [s];
      FirstBoundAppend(skills[1..], s, p, enableItemAuras);
    }
  }

  /**
   * The single pass over the skill bar that registers curses and the four
   * first-match roles, statement for statement as the source's loop; it
   * computes exactly the reference definitions.
   */
  method ScanSkillBar(skills: seq<Skill>, enableItemAuras: bool)
    returns (curses: seq<int>, aura: int, totem: int, trap: int, mine: int)
    ensures curses == CurseSlots(skills)
    ensures aura == FirstBound(skills, AuraRole, enableItemAuras)
    ensures totem == FirstBound(skills, TotemRole, enableItemAuras)
    ensures trap == FirstBound(skills, TrapRole, enableItemAuras)
    ensures mine == FirstBound(skills, MineRole, enableItemAuras)
  {
    curses, aura, totem, trap, mine := [], -1, -1, -1, -1;
    for i := 0 to |skills|
      invariant curses == CurseSlots(skills[..i])
      invariant aura == FirstBound(skills[..i], AuraRole, enableItemAuras)
      invariant totem == FirstBound(skills[..i], TotemRole, enableItemAuras)
      invariant trap == FirstBound(skills[..i], TrapRole, enableItemAuras)
      invariant mine == FirstBound(skills[..i], MineRole, enableItemAuras)
    {
      var skill := skills[i];
      assert skills[..i + 1] == skills[..i] + [skill];
      CurseSlotsAppend(skills[..i], skill);
      FirstBoundAppend(skills[..i], skill, AuraRole, enableItemAuras);
      FirstBoundAppend(skills[..i], skill, TotemRole, enableItemAuras);
      FirstBoundAppend(skills[..i], skill, TrapRole, enableItemAuras);
      FirstBoundAppend(skills[..i], skill, MineRole, enableItemAuras);

      if "curse" in skill.tags {
        if skill.slot != -1 && skill.isCastable {
          curses := curses + [skill.slot];
        }
      }
      if aura == -1 && IsAuraSkill(skill, enableItemAuras) {
        aura := skill.slot;
      }
      if skill.isTotem && totem == -1 {
        totem := skill.slot;
      }
      if skill.isTrap && trap == -1 {
        trap := skill.slot;
      }
      if skill.isMine && mine == -1 {
        mine := skill.slot;
      }
    }
    assert skills[..|skills|] == skills;
  }

  /** The whole refresh block: the scan, then one lookup per named role. */
  method RefreshRoles(skills: seq<Skill>, enableItemAuras: bool) returns (r: Roles)
    ensures r == Refresh(skills, enableItemAuras)
  {
    var curses, aura, totem, trap, mine := ScanSkillBar(skills, enableItemAuras);
    var named := map n | n in AllNamed :: NamedSlot(skills, n);
    r := Roles(named, aura, totem, trap, mine, curses);
  }

  // ------------------------------------------------------- registry facts

  /** A named role is never bound to a totem, trap or mine skill, nor to one that is not castable. */
  lemma NamedRoleIsCastable(skills: seq<Skill>, enableItemAuras: bool, n: Named)
    requires NamedSlot(skills, n) != -1
    ensures exists i :: 0 <= i < |skills| && skills[i].slot == Refresh(skills, enableItemAuras).Slot(n)
                        && skills[i].name == SkillName(n)
                        && skills[i].isCastable && !skills[i].isTotem && !skills[i].isTrap && !skills[i].isMine
  {
  }

  /** With item auras disabled, the aura role only ever holds an aura-tagged, non-vaal skill. */
  lemma ItemAurasNeedTheSetting(skills: seq<Skill>)
    requires Refresh(skills, false).aura != -1
    ensures exists i :: 0 <= i < |skills| && skills[i].slot == Refresh(skills, false).aura
                        && "aura" in skills[i].tags && "vaal" !in skills[i].tags
  {
    FirstBoundSpec(skills, AuraRole, false);
  }

  /** A bar without curse- or aura-tagged skills yields no curse slots and, item auras off, no aura slot. */
  lemma {:induction false} NoTaggedSkillsNoBindings(skills: seq<Skill>)
    requires forall i :: 0 <= i < |skills| ==> "curse" !in skills[i].tags && "aura" !in skills[i].tags
    ensures Refresh(skills, false).curses == []
    ensures Refresh(skills, false).aura == -1
    decreases |skills|
  {
    FirstBoundSpec(skills, AuraRole, false);
    if |skills| > 0 {
      NoTaggedSkillsNoBindings(skills[1..]);
    }
  }
}

=== FILE: routine.dfy ===
/**
 * The routine's entry points around the combat tick: `Start`, `Tick` (the
 * registry refresh), `Execute` (the leash commands) and `Logic` (events and
 * the combat tick itself).
 */
module Routine {
  import opened Registry
  import Config
  import Targeting
  import Animate
  import Combat

  /** The routine's state after `Start()`, and whether it asks the bot to stop. */
  datatype Started = Started(st: Combat.State, stopBot: bool)

  /** No attack slot of the four is configured. */
  predicate Unconfigured(cfg: Config.Settings) {
    && cfg.singleTargetMeleeSlot == -1 && cfg.singleTargetRangedSlot == -1
    && cfg.aoeMeleeSlot == -1 && cfg.aoeRangedSlot == -1
  }

  /** `Start()`: marks the registry for a rebuild and stops the bot when no attack slot is configured. */
  function Start(st: Combat.State, cfg: Config.Settings): (r: Started)
    ensures r.st.needsUpdate
    ensures r.st.(needsUpdate := st.needsUpdate) == st
    ensures r.stopBot <==> Unconfigured(cfg)
  {
    Started(st.(needsUpdate := true), Unconfigured(cfg))
  }

  /**
   * `Tick()`: outside the game nothing happens; a pending rebuild re-reads
   * the skill bar into the registry, zeroes both summon counters and clears
   * the flag. Nothing else in the state moves.
   */
  function Tick(st: Combat.State, inGame: bool, skills: seq<Skill>, cfg: Config.Settings): (r: Combat.State)
    ensures !inGame || !st.needsUpdate ==> r == st
    ensures inGame && st.needsUpdate ==>
              && !r.needsUpdate
              && r.skeletons == 0 && r.ragingSpirits == 0
              && (forall n :: r.roles.Slot(n) == NamedSlot(skills, n))
              && (forall p :: FirstMatch(skills, p, cfg.enableAurasFromItems, r.roles.PlacementSlot(p)))
              && RecordsBoundCurses(skills, r.roles.curses)
    ensures r.leash == st.leash && r.channel == st.channel && r.clocks == st.clocks && r.ignoredItems == st.ignoredItems
  {
    if !inGame || !st.needsUpdate then st
    else st.(roles := Refresh(skills, cfg.enableAurasFromItems), needsUpdate := false, skeletons := 0, ragingSpirits := 0)
  }

  /** After a start, the first in-game tick rebuilds the registry from that tick's skill bar, and later ticks keep it. */
  lemma StartThenTickRebuilds(st: Combat.State, cfg: Config.Settings, skills: seq<Skill>, later: seq<Skill>)
    ensures var first := Tick(Start(st, cfg).st, true, skills, cfg);
            && first.roles == Refresh(skills, cfg.enableAurasFromItems)
            && Tick(first, true, later, cfg) == first
  {
  }

  /** The value an `Execute` call returns: `null`, an int, or the exception a missing argument raises. */
  datatype Value = Null | IntValue(n: int) | Fault

  datatype Executed = Executed(result: Value, st: Combat.State)

  /**
   * `Execute(name, args)` for the two commands registered by hand:
   * `SetLeash` stores its first argument as the leash, `GetLeash` returns
   * it; any other name returns `null`.
   */
  function Execute(st: Combat.State, name: string, args: seq<int>): (r: Executed)
    ensures r.st == st.(leash := r.st.leash)
    ensures r.st.leash != st.leash ==> name == "SetLeash" && |args| > 0 && r.st.leash == args[0]
    ensures r.result.Fault? <==> name == "SetLeash" && |args| == 0
    ensures r.result.IntValue? <==> name == "GetLeash"
    ensures name == "SetLeash" && |args| > 0 ==> r.st.leash == args[0] && r.result == Null
    ensures name == "GetLeash" ==> r.result == IntValue(st.leash) && r.st == st
  {
    if name == "SetLeash" then
      if |args| == 0 then Executed(Fault, st) else Executed(Null, st.(leash := args[0]))
    else if name == "GetLeash" then Executed(IntValue(st.leash), st)
    else Executed(Null, st)
  }

  /** `GetLeash` after `SetLeash n` returns n. */
  lemma SetThenGetLeash(st: Combat.State, n: int, rest: seq<int>, args: seq<int>)
    ensures Execute(Execute(st, "SetLeash", [n] + rest).st, "GetLeash", args).result == IntValue(n)
  {
  }

  /** The leash decides the target inclusion range: the combat range when set, 300 when it is -1. */
  lemma LeashSelectsInclusionRange(st: Combat.State, n: int, cfg: Config.Settings)
    ensures var leashed := Execute(st, "SetLeash", [n]).st;
            Targeting.EffectiveRange(leashed.leash, cfg.combatRange) == if n == -1 then 300 else cfg.combatRange
  {
  }

  /** `Logic(type)`: the three handled events, the combat tick, and "not handled" for anything else. */
  function Logic(st: Combat.State, kind: string, w: Combat.World, cfg: Config.Settings): (o: Combat.Outcome)
    ensures kind == "core_area_changed_event" ==> o == Combat.Outcome(true, [], st.(ignoredItems := []))
    ensures kind in {"core_player_died_event", "core_player_leveled_event"} ==> o == Combat.Outcome(true, [], st)
    ensures kind !in {"core_area_changed_event", "core_player_died_event", "core_player_leveled_event", "combat"} ==>
              o == Combat.Outcome(false, [], st)
    ensures kind == "combat" ==> Combat.Keeps(cfg, w.now, st, o.state)
  {
    if kind == "core_area_changed_event" then Combat.Outcome(true, [], st.(ignoredItems := []))
    else if kind == "core_player_died_event" || kind == "core_player_leveled_event" then Combat.Outcome(true, [], st)
    else if kind == "combat" then Combat.Decide(st, w, cfg)
    else Combat.Outcome(false, [], st)
  }

  /**
   * Items animated in one area are ignored only until the area changes:
   * afterwards the item search sees every item as never animated.
   */
  lemma AreaChangeForgetsAnimatedItems(st: Combat.State, w: Combat.World, cfg: Config.Settings,
                                       items: seq<Animate.WorldItem>, p: Animate.Purpose, maxLevel: int)
    ensures var st' := Logic(st, "core_area_changed_event", w, cfg).state;
            Animate.Select(items, st'.ignoredItems, p, maxLevel).pick.None? <==>
              forall j :: 0 <= j < |items| ==> !(items[j].distance < Animate.SearchRadius && Animate.Fits(p, items[j].item, maxLevel))
  {
  }
}

=== FILE: targeting.dfy ===
/**
 * The production targeting policy: the weight added to each candidate and the
 * hard inclusion filter the framework's Targeting class applies before ranking.
 * The Targeting class's own sorting is external and not modelled here.
 */
module Targeting {
  import opened Common
  import Blacklist

  datatype Affix = Affix(internalName: string, displayName: string)

  /** What the policy reads from a monster. `readable` is false when touching its components throws. */
  datatype MonsterInfo = MonsterInfo(
    id: int,
    name: string,
    metadata: string,
    rarity: Rarity,
    auras: set<string>,
    targetingMe: bool,
    active: bool,
    cannotDie: bool,
    explicitAffixes: seq<Affix>,
    implicitAffixes: seq<Affix>,
    readable: bool)

  /** A network object offered to the policy; only monsters carry `monster`. */
  datatype Entity = Entity(distance: real, monster: Option<MonsterInfo>)

  const CannotDieAura := "monster_aura_cannot_die"

  /** Auras whose carriers cannot be damaged (Divine Shrine, Phylacteral Link, Animated Guardian, necrovigil). */
  const AurasToIgnore: set<string> :=
    {"shrine_godmode", "bloodlines_invulnerable", "god_mode", "bloodlines_necrovigil"}

  /** The distance cap used while no leash has been set. */
  const UnleashedRange := 300

  // ---------------------------------------------------------------- weight

  predicate HasAffixNamed(affixes: seq<Affix>, fragment: string) {
    exists i :: 0 <= i < |affixes| && Contains(affixes[i].internalName, fragment)
  }

  /** A necromancer: some fixed or conditional affix raises undead. */
  predicate IsNecromancer(m: MonsterInfo) {
    HasAffixNamed(m.explicitAffixes, "RaisesUndead") || HasAffixNamed(m.implicitAffixes, "RaisesUndead")
  }

  function Bonus(applies: bool, amount: real): real {
    if applies then amount else 0.0
  }

  function RarityBonus(r: Rarity): real {
    match r
    case Normal => 0.0
    case Magic => 5.0
    case Rare => 10.0
    case Unique => 15.0
  }

  /** The policy's adjustments as a sum of independent terms. */
  function Adjustment(m: MonsterInfo): real {
    Bonus(CannotDieAura in m.auras, 40.0)
    + Bonus(m.targetingMe, 20.0)
    + RarityBonus(m.rarity)
    - Bonus(m.name == "Summoned Skeleton" || m.name == "Raised Zombie", 15.0)
    - Bonus(m.rarity == Normal && Contains(m.metadata, "/Totems/"), 15.0)
    + Bonus(IsNecromancer(m), 30.0)
    - Bonus(Contains(m.metadata, "TaniwhaTail"), 30.0)
  }

  /**
   * The weight handler: the framework passes the running weight in and reads it
   * back. The body follows the handler's sequence of in-place updates.
   */
  function Weight(e: Entity, weight: real): (r: real)
    ensures e.monster.None? ==> r == weight - e.distance / 2.0
    ensures e.monster.Some? ==> r == weight - e.distance / 2.0 + Adjustment(e.monster.value)
    ensures weight - e.distance / 2.0 - 60.0 <= r <= weight - e.distance / 2.0 + 105.0
  {
    var w := weight - e.distance / 2.0;
    match e.monster
    case None => w
    case Some(m) =>
      var w := if CannotDieAura in m.auras then w + 40.0 else w;
      var w := if m.targetingMe then w + 20.0 else w;
      var w := if m.rarity == Magic then w + 5.0
               else if m.rarity == Rare then w + 10.0
               else if m.rarity == Unique then w + 15.0
               else w;
      var w := if m.name == "Summoned Skeleton" then w - 15.0
               else if m.name == "Raised Zombie" then w - 15.0
               else w;
      var w := if m.rarity == Normal && Contains(m.metadata, "/Totems/") then w - 15.0 else w;
      var w := if IsNecromancer(m) then w + 30.0 else w;
      if Contains(m.metadata, "TaniwhaTail") then w - 30.0 else w
  }

  /** Of two otherwise identical candidates the nearer one weighs more, by half the gap. */
  lemma NearerWeighsMore(m: MonsterInfo, near: real, far: real, weight: real)
    requires near < far
    ensures Weight(Entity(near, Some(m)), weight) - Weight(Entity(far, Some(m)), weight) == (far - near) / 2.0
    ensures Weight(Entity(near, Some(m)), weight) > Weight(Entity(far, Some(m)), weight)
  {
  }

  /** Weight is strictly increasing in rarity for otherwise identical monsters. */
  lemma RarerWeighsMore(m: MonsterInfo, lower: Rarity, higher: Rarity, d: real, weight: real)
    requires lower.Rank() < higher.Rank()
    ensures Weight(Entity(d, Some(m.(rarity := lower))), weight) < Weight(Entity(d, Some(m.(rarity := higher))), weight)
  {
  }

  /** The source of "allies cannot die" gains exactly 40 over the same monster without it. */
  lemma CannotDieSourceGainsForty(m: MonsterInfo, d: real, weight: real)
    requires CannotDieAura !in m.auras
    ensures Weight(Entity(d, Some(m.(auras := m.auras + {CannotDieAura}))), weight)
         == Weight(Entity(d, Some(m)), weight) + 40.0
  {
  }

  /** Carrying "RaisesUndead" in both affix lists counts once. */
  lemma NecromancerBonusAppliedOnce(m: MonsterInfo, d: real, weight: real)
    requires HasAffixNamed(m.explicitAffixes, "RaisesUndead")
    ensures Weight(Entity(d, Some(m)), weight)
         == Weight(Entity(d, Some(m.(implicitAffixes := []))), weight)
  {
  }

  /**
   * A monster whose metadata path names a Taniwha tail segment anywhere
   * loses 30, so it can never outweigh the +75 ceiling over its distance term.
   */
  lemma TaniwhaTailIsDemoted(m: MonsterInfo, d: real, weight: real, offset: nat)
    requires offset + |"TaniwhaTail"| <= |m.metadata|
    requires m.metadata[offset..offset + |"TaniwhaTail"|] == "TaniwhaTail"
    ensures Weight(Entity(d, Some(m)), weight) <= weight - d / 2.0 + 75.0
  {
    ContainsAt(m.metadata, "TaniwhaTail", offset);
  }

  // ------------------------------------------------------------- inclusion

  datatype DominusState = DominusState(dead: bool, flag1: int)

  /** Everything inclusion consults besides the entity: blacklist, clock, leash, combat range, the Dominus fight. */
  datatype InclusionContext = InclusionContext(
    blacklist: Blacklist.Store,
    now: int,
    leash: int,
    combatRange: int,
    dominus: Option<DominusState>)

  /** The filter's answer and the blacklist as it stands afterwards. */
  datatype Verdict = Verdict(included: bool, blacklist: Blacklist.Store)

  /** The distance cap: the combat range once a leash is set, 300 otherwise. */
  function EffectiveRange(leash: int, combatRange: int): int {
    if leash != -1 then combatRange else UnleashedRange
  }

  predicate IsVoidspawn(m: MonsterInfo) {
    exists i :: 0 <= i < |m.explicitAffixes| && m.explicitAffixes[i].displayName == "Voidspawn of Abaxoth"
  }

  /** The exclusions that leave the blacklist alone, as one conjunction. */
  predicate PassesFilters(m: MonsterInfo, distance: real, ctx: InclusionContext) {
    && !Blacklist.IsBlacklisted(ctx.blacklist, m.id, ctx.now)
    && m.active
    && !m.cannotDie
    && distance <= EffectiveRange(ctx.leash, ctx.combatRange) as real
    && AurasToIgnore !! m.auras
    && !IsVoidspawn(m)
  }

  /** Dominus is alive and in one of the transition phases (Flag1 of 5 or 6). */
  predicate DominusTransitioning(dominus: Option<DominusState>) {
    dominus.Some? && !dominus.value.dead && dominus.value.flag1 in {5, 6}
  }

  /** The scripted-encounter exclusions, each of which also blacklists the entity. */
  predicate EncounterExcluded(m: MonsterInfo, ctx: InclusionContext) {
    || (m.name == "Miscreation" && DominusTransitioning(ctx.dominus))
    || m.name == "Chilling Portal"
    || m.name == "Burning Portal"
  }

  /** The filter's checks up to the point where it would blacklist. */
  predicate ReachesEncounterChecks(e: Entity, ctx: InclusionContext) {
    e.monster.Some? && e.monster.value.readable && PassesFilters(e.monster.value, e.distance, ctx)
  }

  /**
   * The inclusion handler, as the sequence of early exits it is written as.
   * An unreadable monster stands for any exception thrown inside the handler's
   * try block: it is caught and the entity excluded, with nothing blacklisted.
   */
  function Include(e: Entity, ctx: InclusionContext): (v: Verdict)
    ensures v.included <==> ReachesEncounterChecks(e, ctx) && !EncounterExcluded(e.monster.value, ctx)
    ensures v.blacklist == if ReachesEncounterChecks(e, ctx) && EncounterExcluded(e.monster.value, ctx)
                           then Blacklist.Add(ctx.blacklist, e.monster.value.id, ctx.now, Blacklist.HourMs)
                           else ctx.blacklist
  {
    var excluded := Verdict(false, ctx.blacklist);
    match e.monster
    case None => excluded
    case Some(m) =>
      if !m.readable then excluded
      else if Blacklist.IsBlacklisted(ctx.blacklist, m.id, ctx.now) then excluded
      else if !m.active then excluded
      else if m.cannotDie then excluded
      else if e.distance > (if ctx.leash != -1 then ctx.combatRange else 300) as real then excluded
      else if exists a :: a in AurasToIgnore && a in m.auras then excluded
      else if exists i :: 0 <= i < |m.explicitAffixes| && m.explicitAffixes[i].displayName == "Voidspawn of Abaxoth" then excluded
      else if m.name == "Miscreation" && DominusTransitioning(ctx.dominus) then
        Verdict(false, Blacklist.Add(ctx.blacklist, m.id, ctx.now, Blacklist.HourMs))
      else if m.name == "Chilling Portal" || m.name == "Burning Portal" then
        Verdict(false, Blacklist.Add(ctx.blacklist, m.id, ctx.now, Blacklist.HourMs))
      else Verdict(true, ctx.blacklist)
  }

  /** An included entity is never blacklisted by the call that includes it. */
  lemma IncludedIsNotBlacklisted(e: Entity, ctx: InclusionContext)
    requires Include(e, ctx).included
    ensures Include(e, ctx).blacklist == ctx.blacklist
    ensures e.distance <= EffectiveRange(ctx.leash, ctx.combatRange) as real
  {
  }

  /**
   * A blacklisting exclusion persists: for the next hour, the same monster is
   * excluded by every later call that sees the resulting blacklist, whatever
   * else has changed about it.
   */
  lemma EncounterExclusionPersists(e: Entity, ctx: InclusionContext, later: Entity, laterCtx: InclusionContext)
    requires ReachesEncounterChecks(e, ctx) && EncounterExcluded(e.monster.value, ctx)
    requires later.monster.Some? && later.monster.value.id == e.monster.value.id
    requires laterCtx.blacklist == Include(e, ctx).blacklist
    requires ctx.now <= laterCtx.now < ctx.now + Blacklist.HourMs
    ensures !Include(later, laterCtx).included
    ensures Include(later, laterCtx).blacklist == laterCtx.blacklist
  {
  }

  /**
   * The leash switches the range: a monster that passes every other check is
   * included exactly when it is within the combat range (leash set) or 300
   * (no leash).
   */
  lemma LeashSelectsRange(m: MonsterInfo, d: real, ctx: InclusionContext)
    requires m.readable && m.active && !m.cannotDie && AurasToIgnore !! m.auras && !IsVoidspawn(m)
    requires !Blacklist.IsBlacklisted(ctx.blacklist, m.id, ctx.now) && !EncounterExcluded(m, ctx)
    ensures ctx.leash != -1 ==> (Include(Entity(d, Some(m)), ctx).included <==> d <= ctx.combatRange as real)
    ensures ctx.leash == -1 ==> (Include(Entity(d, Some(m)), ctx).included <==> d <= 300.0)
  {
  }
}
